=== FILE: README.md ===
# bybit P2P seller filter — a Dafny model

`bybit.py` is a small HTTP listener. For each connection it does the following:

1. Reads the request line and takes the query string of its target.
2. Asks the Bybit peer-to-peer marketplace for the sellers currently online.
3. Keeps only the sellers whose own minimum requirements on a buyer (30-day completion
   rate, 30-day finished orders) the caller meets.
4. Renders one HTML table row per kept seller into a template.
5. Answers with `HTTP/1.1 200 OK`, or with a fixed `HTTP/1.1 500` response if anything on the
   way raises.

This project models that pipeline as pure functions and proves what each step promises.
The modules follow the script's structure:

| module | file | what it models |
|---|---|---|
| `Wrappers` | wrappers.dfy | `Option` and `Result` |
| `Numerals` | numerals.dfy | Python's `int(text)` and `str(n)` on decimal text |
| `Text` | text.dfy | `sep.join`, `str.replace`, `str.split(pat)`, `splitlines()[0]`, `strip()`, `split()` |
| `Query` | query.dfy | `queryOnline`: request body and headers built from the query parameters |
| `Sellers` | sellers.dfy | the seller records the marketplace returns |
| `Eligibility` | eligibility.dfy | `only_eligible`, with its `break` and its `ValueError` |
| `Render` | render.dfy | `row_user_url`, `offlineSince`, `make_row`, `make_rows`, `make_html` |
| `Server` | server.dfy | `make_response`, `http_error`, the request-target extraction, one turn of `serve_forever` |

The outside world becomes parameters:

- `parse_qs(urlparse(location).query)` is a function `string -> Option<Params>`. `None`
  stands for a target `urlparse` rejects with ValueError, which the source answers with the
  500 response like every other failure.
- The marketplace call is a function from the request to `Option<seq<Seller>>`. `None`
  stands for any failure of the call or a non-zero `ret_code`.
- The template file's text is an `Option<string>`. `None` means the file cannot be read.
- `time.time()` is a whole-second integer `now`.

Every exception the model represents becomes a `Server.ServeError` value, and every such
error gives the same 500 response.

Line 105 excludes a seller when the caller's value is *below* the seller's minimum. So a
caller stating `completeRateDay30=90` keeps sellers asking for at most 90.
`Eligibility.ThresholdDirection` pins the code's direction down.

## Model

| member | source | states |
|---|---|---|
| Numerals.ParseInt | bybit.py:105 | `int()` on a parameter value succeeds exactly on an optional sign followed by one to 4300 ASCII digits (leading zeros allowed); otherwise it fails as the ValueError does; the sign of the result follows the sign character |
| Numerals.ParseIntLeadingZeros | bybit.py:105 | `int()` reads leading zeros and a `+` sign as no change to the value and a `-` as negation: zeros followed by the digits of `n`, within 4300 digits, read as `n`, or `-n` after a minus, so `int("090") == int("+90") == 90` and `int("-0") == 0` |
| Numerals.ParseIntToString | bybit.py:69 | reading back the number `str()` printed gives the number: `int(str(n)) == n` for every integer of at most 4300 digits, negative ones included |
| Numerals.IntToString | bybit.py:69 | `str(n)` starts with a digit iff `n >= 0`; its inverse is `ParseInt`, by `Numerals.ParseIntToString` |
| Numerals.NatToString | bybit.py:69 | `str(n)` of a non-negative integer is a non-empty run of digits without a leading zero |
| Query.OnlineQuery | bybit.py:27-51 | tokenId, currencyId and amount are the first value of their key or the defaults USDT, RUB, 30000; payment is the whole list or [64, 585]; canTrade holds iff the key is absent or its first value is "1"; the JSON content type is always sent; a Cookie `secure-token=<first value>` is sent iff `secure-token` is a key; no other header is sent, and there are two headers with a token and one without, as in the source's dict |
| Query.FixedFieldsIgnoreParams | bybit.py:28-44 | the fields not read from the parameters are the same for every request and carry the source's values: user id "", side 0, size 100, page 1, both maker flags false, verification filter 0, sort type TRADE_PRICE, empty payment period, region 1 |
| Query.OnlineQueryReadsOnlyRequestKeys | bybit.py:27-51 | two parameter maps that agree on the six keys queryOnline reads produce the same request |
| Query.DefaultOnlineQuery | bybit.py:30-37 | with no parameters the request asks for tradable USDT offers in RUB, payment methods 64 and 585, amount 30000, without a cookie |
| Eligibility.Check | bybit.py:104-107 | one test fails with its key iff it applies (key supplied, flag equal to 1) and the caller's value is not a numeral; it passes iff it does not apply or the caller's value is at least the seller's minimum |
| Eligibility.EvalTests | bybit.py:103-107 | the inner loop with its `break`; its meaning is stated by `Eligibility.EvalTestsMeaning` and compared with evaluating every test by `Eligibility.BreakPreservesOutcome` |
| Eligibility.EvalTestsMeaning | bybit.py:103-107 | the inner loop keeps the seller iff every test is satisfied, and raises iff it reaches an unreadable value before any test has excluded the seller |
| Eligibility.BreakPreservesOutcome | bybit.py:103-107 | whenever evaluating every test would succeed, the `break` does not change the outcome |
| Eligibility.BreakSkipsLaterValue | bybit.py:103-107 | once the completion-rate test excludes, the `break` skips an unreadable order-count value: the seller is dropped where evaluating every test would raise |
| Eligibility.Evaluate | bybit.py:100-107 | the loop body for one item; its keep and raise conditions are stated by `Eligibility.EvaluateMeaning` |
| Eligibility.EvaluateMeaning | bybit.py:100-107 | one item is kept iff it has no preference record or meets both tests; its evaluation raises iff the completion-rate value is unreadable, or that test passes and the order-count value is unreadable; an item without preferences is always kept |
| Eligibility.ThresholdDirection | bybit.py:104-106 | a caller stating completion rate `a` (at most 4300 digits) keeps a seller enforcing minimum `b` iff `a >= b` |
| Eligibility.OnlyEligible | bybit.py:91-110 | on success the result is a subsequence of the input: nothing added, nothing reordered |
| Eligibility.OnlyEligibleSnoc | bybit.py:99-109 | one pass of the outer loop: a successful call on a list with one more item extends the earlier result by that item exactly when it is eligible |
| Eligibility.OnlyEligibleIsFilter | bybit.py:91-110 | on success the result equals the front-to-back reference filter `FilterEligible`: each eligible seller, every copy of it, in input order, and nothing else |
| Eligibility.FilterEligibleCounts | bybit.py:108-109 | the reference filter keeps as many copies of a seller as the input holds if it is eligible, and none otherwise |
| Eligibility.OnlyEligibleEvaluations | bybit.py:99-110 | on success every item was evaluated without raising, and an item appears in the result iff it evaluated to keep |
| Eligibility.OnlyEligibleKeepsEligible | bybit.py:91-110 | on success the result is a subsequence of the input holding every eligible seller exactly as many times as the input does and no other seller |
| Eligibility.NoPreferencesAlwaysKept | bybit.py:100-109 | a seller without a preference record is kept whatever the parameters |
| Eligibility.OnlyEligibleFailure | bybit.py:99-107 | the call raises iff some item's evaluation raises |
| Eligibility.ReadableThresholdsNeverFail | bybit.py:104-105 | if every supplied threshold value is a numeral the filter never raises |
| Eligibility.AllPassingKept | bybit.py:108-109 | if every item evaluates to keep, the output is the input |
| Eligibility.NoThresholdKeysKeepAll | bybit.py:104 | without either threshold key no test applies and the output is the input |
| Eligibility.OnlyEligibleIdempotent | bybit.py:91-110 | filtering the output again with the same parameters changes nothing |
| Eligibility.PrefixFailurePropagates | bybit.py:99-110 | an item that raises aborts the call: later items cannot change the outcome |
| Eligibility.OnlyEligibleLoop | bybit.py:91-110 | the nested loops with their `break` and early raise compute `OnlyEligible` |
| Eligibility.SubsequenceElements | bybit.py:108-109 | a subsequence is no longer than its source and holds only its elements |
| Render.RowUserUrl | bybit.py:62-63 | the seller id is read back unchanged from the profile URL, so different sellers get different links |
| Render.OfflineMinutes | bybit.py:68-69 | the minute count is the floor of the elapsed seconds over 60: `m*60 <= now - logout < m*60 + 60` |
| Render.OfflineSince | bybit.py:68-69 | the text is `offline (` and ` mins)` around a number that reads back as the minute count |
| Render.StatusDistinguishes | bybit.py:76 | the status text is exactly `online` and the colour green iff the seller is online |
| Render.MakeRow | bybit.py:71-81 | one seller's row; its frame and fields are stated by `Render.MakeRowFrame` and `Render.MakeRowFields` |
| Render.BodyPieceShown | bybit.py:71-81 | every fragment of the row's f-string appears in the row |
| Render.MakeRowFrame | bybit.py:71-81 | a row starts with the `<tr class="tr-data">` line and ends with the `</tr>` line |
| Render.MakeRowFields | bybit.py:75-79 | a row carries the profile link with the nickname, the status, the price, the amount range and the remark, each verbatim |
| Render.MakeRows | bybit.py:83-84 | the rows text; its layout is stated by `Render.MakeRowsTiles` and `Render.MakeRowsAppend` |
| Render.MakeRowsTiles | bybit.py:83-84 | the rows text is tiled by the rows in input order with one newline between, and the last row ends it |
| Render.MakeRowsAppend | bybit.py:83-84 | no sellers give the empty text; rendering a concatenation joins the two renderings with a newline; one seller gives its row |
| Render.MakeHtml | bybit.py:86-89 | the page is the template's placeholder-free pieces joined with the rows text |
| Render.MakeHtmlWithoutMarker | bybit.py:86-89 | a template without the placeholder is returned unchanged |
| Render.MakeHtmlSingleMarker | bybit.py:86-89 | a template with the placeholder exactly once gets the rows in its place and keeps the rest |
| Render.MakeHtmlEveryMarker | bybit.py:86-89 | every placeholder is replaced: the pieces between placeholders hold none, and those pieces joined by the placeholder give back the template |
| Text.Join | bybit.py:84 | `sep.join(parts)`; its layout is stated by `Text.JoinTiles` and `Text.JoinAppend` |
| Text.JoinTiles | bybit.py:84 | `sep.join(parts)` holds each part at its offset, a separator after each but the last, and the last part ends the text |
| Text.JoinAppend | bybit.py:84 | joining two non-empty lists is joining their joins with one separator |
| Text.ReplaceAll | bybit.py:89 | `str.replace`; its reference definition is stated by `Text.ReplaceAllIsJoinOfSplit` |
| Text.ReplaceAllAbsent | bybit.py:89 | `replace` leaves text without the pattern unchanged |
| Text.ReplaceAllIsJoinOfSplit | bybit.py:89 | `s.replace(pat, rep) == rep.join(s.split(pat))` for a non-empty pattern |
| Text.SplitPieces | bybit.py:89 | `split(pat)` cuts exactly where the left-to-right scan finds the pattern: the pieces joined by the pattern give back the text |
| Text.ReplaceAllSelf | bybit.py:89 | replacing the pattern by itself changes nothing |
| Text.ReplaceAllSingle | bybit.py:89 | a text holding the pattern once gets the replacement in its place and nothing else changes |
| Text.FirstLine | bybit.py:151 | `splitlines()[0]` raises iff the text is empty; otherwise it is a prefix without line breaks that ends at the first line break |
| Text.FirstLineOf | bybit.py:151 | the first line of `line + break + rest` is `line` |
| Text.Strip | bybit.py:151 | `strip()` gives the infix of its input between a leading and a trailing whitespace run, and that infix neither starts nor ends with whitespace |
| Text.WordsOfTrimmed | bybit.py:151 | removing whitespace from both ends does not change the tokens |
| Text.WordsOfStrip | bybit.py:151 | `strip()` before `split()` makes no difference |
| Text.WordsOfJoin | bybit.py:151 | `" ".join(ws).split() == ws` when every element is a whitespace-free token |
| Server.SuccessResponse | bybit.py:123-125 | a client reading the success response finds the header block `HTTP/1.1 200 OK` + CRLF + `Content-Type: text/html`, status code 200, and after the header block exactly the page |
| Server.HttpError | bybit.py:127-130 | a client reading the error response finds the header block `HTTP/1.1 500` + CRLF + `Content-Type: text/html`, status code 500, and after the header block exactly the message |
| Server.ResponseBodyAfterHead | bybit.py:123-130 | after a status line and the content-type header, the first blank line ends the header block, so the head reads back as those two lines and the body is read back whatever it holds |
| Server.ResponseHeadAndBody | bybit.py:123-130 | a response with a blank line is exactly its header block, the blank line and its body, so the two readings of `SuccessResponse` and `HttpError` pin the whole text |
| Server.SecondToken | bybit.py:151 | the target exists iff the text has a first line with at least two tokens, and then it is that line's second token under `split()`; `strip()` makes no difference |
| Server.SecondTokenOfLine | bybit.py:151 | for a first line made of space-separated tokens, the second token is found whatever follows the line break; fewer than two tokens raise |
| Server.RequestTargetOfRequestLine | bybit.py:151 | the request line `VERB target VERSION\r\n...` yields its target |
| Server.StatusCodeAfter | bybit.py:123-130 | a response whose status line is made of tokens has its second token as status code, whatever its body |
| Server.Page | bybit.py:113-125 | the page or the first failure, in the source's order; its outcomes are stated by `Server.FailuresGiveError`, `Server.ServedPageShowsEligible` and `Server.NoThresholdsShowsAll` |
| Server.Serve | bybit.py:140-161 | every connection gets either the 200 header block with the rendered page as body or the 500 header block with the fixed message as body |
| Server.FailuresGiveError | bybit.py:140-161 | a request without a target, a target `urlparse` rejects, a failed marketplace call, an unreadable threshold value or an unreadable template each give the error response |
| Server.ServedPageShowsEligible | bybit.py:113-125 | on success the page is the template with the rows of the reference filter's list (every eligible seller, each copy, in marketplace order) in place of its one placeholder |
| Server.NoThresholdsShowsAll | bybit.py:113-125 | a request naming neither threshold shows every seller the marketplace returned |

## Left out

- The socket layer (`start_listening`, `accept`, `send`, `close`) and the endless loop: one connection is modelled as a function from the request text to the response text.
- The 9999-byte cap of `recv` and UTF-8 decoding and encoding: the request and the response are character sequences.
- Logging (lines 137, 145, 149, 158) and writing `last_response.txt` (lines 118-119): these have no effect on the response. A failure to write the file would also give the 500 response, and this is not modelled.
- `requests.post` and the `ret_code` check (lines 53-60): the marketplace call is a parameter. Any failure, including a non-zero `ret_code`, is `None`.
- `queryAllPaymentList` (lines 15-25): nothing in the served pipeline calls it.
- `humanizeUnixtime` (lines 65-66): nothing calls it.
- `urlparse` and `parse_qs` (line 152): the query parser is a parameter that may fail. Its results are constrained to what `parse_qs` produces, a non-empty list per key.
- Render.OfflineMinutes: `time.time()` is a float and `int()` truncates the difference toward zero. The model uses a whole-second clock, so a fractional second and a negative fractional difference are not modelled. The subtraction also converts the integer `lastLogoutTime` to a float: a timestamp above about 1.8e308 raises OverflowError in the source, which then answers 500 where the model renders the page, and beyond 2^53 the difference is rounded, so the printed minutes can differ from the exact `(now - t) // 60` the model computes. The source reads the clock once per offline row, while the model uses one `now` for the whole request.
- Numerals.ParseInt: accepts only an optional sign and ASCII digits. Python's `int()` also accepts surrounding whitespace, underscores between digits and non-ASCII decimal digits, and these are not modelled. The 4300-digit limit is the default of Python 3.11 onwards; an interpreter without the limit would accept longer numerals.
- Numerals.IntToString: `str()` of an integer over 4300 digits raises in Python 3.11 onwards. The only number printed is a minute count derived from the clock and a marketplace timestamp, which the JSON decoder already limits to 4300 digits, so `str()` is modelled without the limit.
- Sellers: the seller's thresholds and `lastLogoutTime` are integers already. `int()` on a malformed marketplace value, which would also give the 500 response, is not modelled.
- Sellers: an enable flag is a JSON scalar without floats. A flag of `1.0` would also equal 1 in Python.
- Sellers: `isOnline` is a boolean, not an arbitrary truthy JSON value. Only the fields the script reads are modelled.
- Text.ReplaceAll: defined only for a non-empty pattern. The script's one pattern is the constant placeholder.

=== FILE: eligibility.dfy ===
/** `only_eligible` (bybit.py:91-110): keep the sellers whose own minimum requirements the
    caller meets. Each of two checks applies only when the caller supplied its key and the
    seller enforces it; an applied check excludes the seller when the caller's value is
    below the seller's minimum. `int()` on a caller value that is not a numeral raises; the
    model returns `Failure` with the offending key instead. */
module Eligibility {
  import opened Wrappers
  import opened Numerals
  import opened Query
  import opened Sellers

  // ---------------------------------------------------------------------------------------
  // Subsequences

  /** `a` can be obtained from `b` by deleting elements: nothing added, nothing reordered. */
  predicate IsSubsequence<T(==)>(a: seq<T>, b: seq<T>)
    decreases |b|
  {
    if |a| == 0 then true
    else if |b| == 0 then false
    else (a[|a| - 1] == b[|b| - 1] && IsSubsequence(a[..|a| - 1], b[..|b| - 1]))
         || IsSubsequence(a, b[..|b| - 1])
  }

  lemma {:induction false} SubsequenceElements<T>(a: seq<T>, b: seq<T>)
    requires IsSubsequence(a, b)
    ensures |a| <= |b|
    ensures forall x :: x in a ==> x in b
    decreases |b|
  {
    if |a| > 0 {
      if a[|a| - 1] == b[|b| - 1] && IsSubsequence(a[..|a| - 1], b[..|b| - 1]) {
        SubsequenceElements(a[..|a| - 1], b[..|b| - 1]);
        assert a == a[..|a| - 1] + [a[|a| - 1]];
        assert b == b[..|b| - 1] + [b[|b| - 1]];
      } else {
        SubsequenceElements(a, b[..|b| - 1]);
        assert b == b[..|b| - 1] + [b[|b| - 1]];
      }
    }
  }

  // ---------------------------------------------------------------------------------------
  // The two checks

  /** The entries of the source's `tests` list, in order. */
  datatype Test = CompleteRate | OrderFinish {

    /** The parameter key, which is also the seller's threshold key. */
    function Key(): string {
      match this
      case CompleteRate => "completeRateDay30"
      case OrderFinish => "orderFinishNumberDay30"
    }

    /** `prefs[enableKey] == 1`. */
    predicate EnabledBy(p: Preferences) {
      match this
      case CompleteRate => EqualsOne(p.hasCompleteRateDay30)
      case OrderFinish => EqualsOne(p.hasOrderFinishNumberDay30)
    }

    /** `int(prefs[key])`. */
    function Threshold(p: Preferences): int {
      match this
      case CompleteRate => p.completeRateDay30
      case OrderFinish => p.orderFinishNumberDay30
    }
  }

  const Tests: seq<Test> := [CompleteRate, OrderFinish]

  /** A check applies: the caller supplied its key and the seller enforces it. */
  predicate Active(t: Test, p: Preferences, params: Params) {
    t.Key() in params && t.EnabledBy(p)
  }

  /** `int(params[key][0])`. */
  function CallerValue(t: Test, params: Params): Option<int>
    requires t.Key() in params
  {
    ParseInt(params[t.Key()][0])
  }

  /** The check does not stand in the way: it does not apply, or the caller's value reaches
      the seller's minimum. */
  predicate Satisfied(t: Test, p: Preferences, params: Params) {
    !Active(t, p, params) || (CallerValue(t, params).Some? && CallerValue(t, params).value >= t.Threshold(p))
  }

  /** The check applies and `int()` rejects the caller's value. */
  predicate Unreadable(t: Test, p: Preferences, params: Params) {
    Active(t, p, params) && CallerValue(t, params).None?
  }

  predicate AllSatisfied(ts: seq<Test>, p: Preferences, params: Params) {
    forall k :: 0 <= k < |ts| ==> Satisfied(ts[k], p, params)
  }

  /** Evaluating `ts` in order reaches a check whose value `int()` rejects. */
  predicate ReachesUnreadable(ts: seq<Test>, p: Preferences, params: Params) {
    exists k :: 0 <= k < |ts| && AllSatisfied(ts[..k], p, params) && Unreadable(ts[k], p, params)
  }

  /** One pass of the inner loop body (lines 104-107): `Success(false)` excludes the seller. */
  function Check(t: Test, p: Preferences, params: Params): (r: Result<bool, string>)
    ensures r.Failure? <==> Unreadable(t, p, params)
    ensures r.Failure? ==> r.error == t.Key()
    ensures r == Success(true) <==> Satisfied(t, p, params)
  {
    if t.Key() in params && t.EnabledBy(p) then
      match ParseInt(params[t.Key()][0])
      case None => Failure(t.Key())
      case Some(v) => Success(!(v < t.Threshold(p)))
    else Success(true)
  }

  /** The inner loop (lines 103-107): the checks in order, stopping at the first that
      excludes (the `break`). */
  function EvalTests(ts: seq<Test>, p: Preferences, params: Params): (r: Result<bool, string>)
    decreases |ts|
  {
    if |ts| == 0 then Success(true)
    else
      match Check(ts[0], p, params)
      case Failure(e) => Failure(e)
      case Success(pass) => if pass then EvalTests(ts[1..], p, params) else Success(false)
  }

  /** The same checks without the `break`: every check is evaluated. */
  function EvalAll(ts: seq<Test>, p: Preferences, params: Params): Result<bool, string>
    decreases |ts|
  {
    if |ts| == 0 then Success(true)
    else
      match Check(ts[0], p, params)
      case Failure(e) => Failure(e)
      case Success(pass) =>
        match EvalAll(ts[1..], p, params)
        case Failure(e) => Failure(e)
        case Success(rest) => Success(pass && rest)
  }

  lemma AllSatisfiedFirst(ts: seq<Test>, p: Preferences, params: Params)
    requires |ts| > 0
    ensures AllSatisfied(ts, p, params) <==> Satisfied(ts[0], p, params) && AllSatisfied(ts[1..], p, params)
  {
    if Satisfied(ts[0], p, params) && AllSatisfied(ts[1..], p, params) {
      forall k | 0 < k < |ts| ensures Satisfied(ts[k], p, params) {
        assert ts[k] == ts[1..][k - 1];
      }
    }
  }

  lemma ReachesUnreadableFirst(ts: seq<Test>, p: Preferences, params: Params)
    requires |ts| > 0
    ensures ReachesUnreadable(ts, p, params) <==>
      Unreadable(ts[0], p, params) || (Satisfied(ts[0], p, params) && ReachesUnreadable(ts[1..], p, params))
  {
    if Unreadable(ts[0], p, params) {
      assert AllSatisfied(ts[..0], p, params);
    }
    if Satisfied(ts[0], p, params) && ReachesUnreadable(ts[1..], p, params) {
      var k :| 0 <= k < |ts[1..]| && AllSatisfied(ts[1..][..k], p, params) && Unreadable(ts[1..][k], p, params);
      assert ts[..k + 1][1..] == ts[1..][..k];
      AllSatisfiedFirst(ts[..k + 1], p, params);
      assert Unreadable(ts[k + 1], p, params);
    }
    if ReachesUnreadable(ts, p, params) && !Unreadable(ts[0], p, params) {
      var k :| 0 <= k < |ts| && AllSatisfied(ts[..k], p, params) && Unreadable(ts[k], p, params);
      assert k != 0;
      assert ts[..k][0] == ts[0];
      assert ts[..k][1..] == ts[1..][..k - 1];
      AllSatisfiedFirst(ts[..k], p, params);
      assert ts[1..][k - 1] == ts[k];
    }
  }

  /** The checks keep the seller iff every check is satisfied, and fail iff evaluation
      reaches an unreadable value before any check excludes. */
  lemma {:induction false} EvalTestsMeaning(ts: seq<Test>, p: Preferences, params: Params)
    ensures EvalTests(ts, p, params).Success? ==> (EvalTests(ts, p, params).value <==> AllSatisfied(ts, p, params))
    ensures EvalTests(ts, p, params).Failure? <==> ReachesUnreadable(ts, p, params)
    decreases |ts|
  {
    if |ts| > 0 {
      EvalTestsMeaning(ts[1..], p, params);
      AllSatisfiedFirst(ts, p, params);
      ReachesUnreadableFirst(ts, p, params);
    }
  }

  /** The `break` changes nothing whenever evaluating every check would succeed. */
  lemma {:induction false} BreakPreservesOutcome(ts: seq<Test>, p: Preferences, params: Params)
    requires EvalAll(ts, p, params).Success?
    ensures EvalTests(ts, p, params) == EvalAll(ts, p, params)
    decreases |ts|
  {
    if |ts| > 0 && Check(ts[0], p, params) == Success(true) {
      BreakPreservesOutcome(ts[1..], p, params);
    }
  }

  /** The converse does not hold: once the completion-rate check excludes, the `break`
      skips the order-count value, so an unreadable one excludes the seller instead of
      failing the request as evaluating every check would. */
  lemma BreakSkipsLaterValue(p: Preferences, params: Params)
    requires Active(CompleteRate, p, params) && !Satisfied(CompleteRate, p, params)
    requires !Unreadable(CompleteRate, p, params) && Unreadable(OrderFinish, p, params)
    ensures EvalTests(Tests, p, params) == Success(false)
    ensures EvalAll(Tests, p, params).Failure?
  {
    assert Tests[1..] == [OrderFinish];
    assert EvalAll(Tests[1..], p, params).Failure?;
  }

  // ---------------------------------------------------------------------------------------
  // One seller

  /** The seller passes: it has no preferences, or both checks are satisfied. */
  predicate Eligible(s: Seller, params: Params) {
    || s.tradingPreferenceSet.None?
    || (&& Satisfied(CompleteRate, s.tradingPreferenceSet.value, params)
        && Satisfied(OrderFinish, s.tradingPreferenceSet.value, params))
  }

  /** Evaluating the seller raises: the completion-rate value is unreadable, or that check
      lets the seller through and the order-count value is unreadable. */
  predicate Raises(s: Seller, params: Params) {
    && s.tradingPreferenceSet.Some?
    && var p := s.tradingPreferenceSet.value;
    || Unreadable(CompleteRate, p, params)
    || (Satisfied(CompleteRate, p, params) && Unreadable(OrderFinish, p, params))
  }

  /** The loop body for one item (lines 100-107). */
  function Evaluate(s: Seller, params: Params): Result<bool, string> {
    match s.tradingPreferenceSet
    case None => Success(true)
    case Some(p) => EvalTests(Tests, p, params)
  }

  lemma EvaluateMeaning(s: Seller, params: Params)
    ensures Evaluate(s, params).Success? ==> (Evaluate(s, params).value <==> Eligible(s, params))
    ensures Evaluate(s, params).Failure? <==> Raises(s, params)
    ensures s.tradingPreferenceSet.None? ==> Evaluate(s, params) == Success(true)
  {
    if s.tradingPreferenceSet.Some? {
      var p := s.tradingPreferenceSet.value;
      EvalTestsMeaning(Tests, p, params);
      assert Tests[..0] == [] && Tests[..1] == [CompleteRate];
      assert AllSatisfied(Tests, p, params) <==>
             Satisfied(CompleteRate, p, params) && Satisfied(OrderFinish, p, params) by {
        assert Tests[0] == CompleteRate && Tests[1] == OrderFinish;
      }
      if Unreadable(CompleteRate, p, params) {
        assert AllSatisfied(Tests[..0], p, params) && Unreadable(Tests[0], p, params);
      } else if Satisfied(CompleteRate, p, params) && Unreadable(OrderFinish, p, params) {
        assert AllSatisfied(Tests[..1], p, params) && Unreadable(Tests[1], p, params);
      }
    }
  }

  /** The direction of the comparison: a caller stating a completion rate `a` keeps a
      seller that enforces a minimum rate `b` iff `a >= b`; so a caller at 90 keeps a seller
      asking for 80 and drops one asking for 95. */
  lemma ThresholdDirection(a: int, b: int)
    requires DigitCount(a) <= MaxStrDigits
    ensures var params: Params := map["completeRateDay30" := [IntToString(a)]];
            var s := Seller("id", "nick", true, 0, "1", "1", "2", "", Some(Preferences(JsonNumber(1), b, JsonNumber(0), 0)));
            Evaluate(s, params) == Success(a >= b)
  {
    ParseIntToString(a);
  }

  // ---------------------------------------------------------------------------------------
  // The whole list

  /** `only_eligible(data, params)`: the outer loop appends each passing item in turn; the
      first item whose evaluation raises aborts the whole call. */
  function OnlyEligible(data: seq<Seller>, params: Params): (r: Result<seq<Seller>, string>)
    ensures r.Success? ==> IsSubsequence(r.value, data)
    decreases |data|
  {
    if |data| == 0 then Success([])
    else
      var last := data[|data| - 1];
      match OnlyEligible(data[..|data| - 1], params)
      case Failure(e) => Failure(e)
      case Success(kept) =>
        match Evaluate(last, params)
        case Failure(e) => Failure(e)
        case Success(keep) =>
          if keep then
            assert (kept + [last])[..|kept|] == kept;
            Success(kept + [last])
          else Success(kept)
  }

  /** On success every item was evaluated without raising, and the kept items are exactly
      those that evaluated to `true`. */
  lemma {:induction false} OnlyEligibleEvaluations(data: seq<Seller>, params: Params)
    requires OnlyEligible(data, params).Success?
    ensures forall i :: 0 <= i < |data| ==> Evaluate(data[i], params).Success?
    ensures forall s :: s in OnlyEligible(data, params).value <==> s in data && Evaluate(s, params) == Success(true)
    decreases |data|
  {
    OnlyEligibleAllEvaluate(data, params);
    if |data| > 0 {
      var init := data[..|data| - 1];
      var last := data[|data| - 1];
      assert init + [last] == data;
      OnlyEligibleSnoc(init, last, params);
      OnlyEligibleEvaluations(init, params);
      var kept := OnlyEligible(init, params).value;
      var extra: seq<Seller> := if Eligible(last, params) then [last] else [];
      assert OnlyEligible(data, params).value == kept + extra;
      forall s ensures s in OnlyEligible(data, params).value
                       <==> s in data && Evaluate(s, params) == Success(true) {
        assert s in data <==> s in init || s == last;
        assert s in kept + extra <==> s in kept || s in extra;
      }
    }
  }

  /** On success no seller's evaluation raised. */
  lemma {:induction false} OnlyEligibleAllEvaluate(data: seq<Seller>, params: Params)
    requires OnlyEligible(data, params).Success?
    ensures forall i :: 0 <= i < |data| ==> Evaluate(data[i], params).Success?
    decreases |data|
  {
    if |data| > 0 {
      var init := data[..|data| - 1];
      var last := data[|data| - 1];
      assert init + [last] == data;
      OnlyEligibleSnoc(init, last, params);
      OnlyEligibleAllEvaluate(init, params);
      forall i | 0 <= i < |data| ensures Evaluate(data[i], params).Success? {
        if i < |init| {
          assert data[i] == init[i];
        }
      }
    }
  }

  /** The result keeps exactly the eligible sellers (every input seller whose preferences
      the caller meets), each as often as it occurs in the input, in input order. */
  lemma OnlyEligibleKeepsEligible(data: seq<Seller>, params: Params)
    requires OnlyEligible(data, params).Success?
    ensures IsSubsequence(OnlyEligible(data, params).value, data)
    ensures forall s :: s in OnlyEligible(data, params).value <==> s in data && Eligible(s, params)
    ensures forall s :: multiset(OnlyEligible(data, params).value)[s]
                        == if Eligible(s, params) then multiset(data)[s] else 0
  {
    OnlyEligibleIsFilter(data, params);
    forall s ensures multiset(OnlyEligible(data, params).value)[s]
                     == if Eligible(s, params) then multiset(data)[s] else 0 {
      FilterEligibleCounts(data, params, s);
    }
    OnlyEligibleEvaluations(data, params);
    forall s | s in data
      ensures Evaluate(s, params) == Success(true) <==> Eligible(s, params)
    {
      EvaluateMeaning(s, params);
    }
  }

  /** A seller without a preference record is always kept, whatever the parameters. */
  lemma NoPreferencesAlwaysKept(data: seq<Seller>, params: Params, s: Seller)
    requires OnlyEligible(data, params).Success?
    requires s in data && s.tradingPreferenceSet.None?
    ensures s in OnlyEligible(data, params).value
  {
    OnlyEligibleEvaluations(data, params);
  }

  /** The call fails exactly when some seller's evaluation raises. */
  lemma {:induction false} OnlyEligibleFailure(data: seq<Seller>, params: Params)
    ensures OnlyEligible(data, params).Failure? <==> exists i :: 0 <= i < |data| && Raises(data[i], params)
    decreases |data|
  {
    if |data| > 0 {
      var init := data[..|data| - 1];
      var last := data[|data| - 1];
      OnlyEligibleFailure(init, params);
      EvaluateMeaning(last, params);
      assert data == init + [last];
      RaisesSnoc(init, last, params);
    }
  }

  /** Some seller of a non-empty list raises iff one before the last does or the last does. */
  lemma RaisesSnoc(init: seq<Seller>, last: Seller, params: Params)
    ensures (exists i :: 0 <= i < |init + [last]| && Raises((init + [last])[i], params))
        <==> (exists i :: 0 <= i < |init| && Raises(init[i], params)) || Raises(last, params)
  {
    var data := init + [last];
    assert data[|init|] == last;
    if exists i :: 0 <= i < |init| && Raises(init[i], params) {
      var i :| 0 <= i < |init| && Raises(init[i], params);
      assert data[i] == init[i];
    }
    if exists i :: 0 <= i < |data| && Raises(data[i], params) {
      var i :| 0 <= i < |data| && Raises(data[i], params);
      if i < |init| {
        assert init[i] == data[i];
      }
    }
  }

  /** The reference filter, read front to back: each eligible seller in turn, every copy of
      it, and nothing else. */
  function FilterEligible(data: seq<Seller>, params: Params): seq<Seller>
    decreases |data|
  {
    if |data| == 0 then []
    else (if Eligible(data[0], params) then [data[0]] else []) + FilterEligible(data[1..], params)
  }

  /** Filtering a list with one more seller at the end filters that seller last. */
  lemma {:induction false} FilterEligibleSnoc(data: seq<Seller>, s: Seller, params: Params)
    ensures FilterEligible(data + [s], params)
            == FilterEligible(data, params) + (if Eligible(s, params) then [s] else [])
    decreases |data|
  {
    if |data| == 0 {
      assert (data + [s])[1..] == [];
    } else {
      assert (data + [s])[0] == data[0];
      assert (data + [s])[1..] == data[1..] + [s];
      FilterEligibleSnoc(data[1..], s, params);
    }
  }

  /** The reference filter keeps every copy of an eligible seller and no copy of any other. */
  lemma {:induction false} FilterEligibleCounts(data: seq<Seller>, params: Params, s: Seller)
    ensures multiset(FilterEligible(data, params))[s] == if Eligible(s, params) then multiset(data)[s] else 0
    decreases |data|
  {
    if |data| > 0 {
      FilterEligibleCounts(data[1..], params, s);
      assert data == [data[0]] + data[1..];
      assert multiset(data) == multiset([data[0]]) + multiset(data[1..]);
    }
  }

  /** One step of the outer loop: a successful call on `init + [last]` extends the result on
      `init` by `last` exactly when `last` is eligible. */
  lemma OnlyEligibleSnoc(init: seq<Seller>, last: Seller, params: Params)
    requires OnlyEligible(init + [last], params).Success?
    ensures OnlyEligible(init, params).Success?
    ensures Evaluate(last, params) == Success(Eligible(last, params))
    ensures OnlyEligible(init + [last], params).value
            == OnlyEligible(init, params).value + (if Eligible(last, params) then [last] else [])
  {
    var data := init + [last];
    assert data[..|data| - 1] == init && data[|data| - 1] == last;
    EvaluateMeaning(last, params);
  }

  /** On success `only_eligible` returns exactly the reference filter's list: each eligible
      seller, as many times as it occurs, in input order. */
  lemma {:induction false} OnlyEligibleIsFilter(data: seq<Seller>, params: Params)
    requires OnlyEligible(data, params).Success?
    ensures OnlyEligible(data, params).value == FilterEligible(data, params)
    decreases |data|
  {
    if |data| > 0 {
      var init := data[..|data| - 1];
      var last := data[|data| - 1];
      assert init + [last] == data;
      OnlyEligibleSnoc(init, last, params);
      OnlyEligibleIsFilter(init, params);
      FilterEligibleSnoc(init, last, params);
    }
  }

  /** Every supplied threshold value is a numeral. */
  predicate ThresholdsReadable(params: Params) {
    forall t: Test :: t.Key() in params ==> ParseInt(params[t.Key()][0]).Some?
  }

  /** With readable threshold values the filter cannot fail. */
  lemma ReadableThresholdsNeverFail(data: seq<Seller>, params: Params)
    requires ThresholdsReadable(params)
    ensures OnlyEligible(data, params).Success?
  {
    OnlyEligibleFailure(data, params);
  }

  /** Items that all evaluate to `true` are all kept. */
  lemma {:induction false} AllPassingKept(data: seq<Seller>, params: Params)
    requires forall i :: 0 <= i < |data| ==> Evaluate(data[i], params) == Success(true)
    ensures OnlyEligible(data, params) == Success(data)
    decreases |data|
  {
    if |data| > 0 {
      var init := data[..|data| - 1];
      forall i | 0 <= i < |init| ensures Evaluate(init[i], params) == Success(true) {
        assert init[i] == data[i];
      }
      AllPassingKept(init, params);
      assert init + [data[|data| - 1]] == data;
    }
  }

  /** Without either threshold key no check applies, and the output is the input. */
  lemma NoThresholdKeysKeepAll(data: seq<Seller>, params: Params)
    requires CompleteRate.Key() !in params && OrderFinish.Key() !in params
    ensures OnlyEligible(data, params) == Success(data)
  {
    forall i | 0 <= i < |data| ensures Evaluate(data[i], params) == Success(true) {
      if data[i].tradingPreferenceSet.Some? {
        var p := data[i].tradingPreferenceSet.value;
        assert Tests[1..] == [OrderFinish];
        assert Check(CompleteRate, p, params) == Success(true);
        assert Check(OrderFinish, p, params) == Success(true);
      }
    }
    AllPassingKept(data, params);
  }

  /** Filtering the output again with the same parameters changes nothing. */
  lemma OnlyEligibleIdempotent(data: seq<Seller>, params: Params)
    requires OnlyEligible(data, params).Success?
    ensures OnlyEligible(OnlyEligible(data, params).value, params) == OnlyEligible(data, params)
  {
    var out := OnlyEligible(data, params).value;
    OnlyEligibleEvaluations(data, params);
    forall i | 0 <= i < |out| ensures Evaluate(out[i], params) == Success(true) {
      assert out[i] in out;
    }
    AllPassingKept(out, params);
  }

  /** A failure in a prefix is the failure of the whole list: later items are never
      evaluated. */
  lemma {:induction false} PrefixFailurePropagates(data: seq<Seller>, params: Params, n: nat)
    requires n <= |data| && OnlyEligible(data[..n], params).Failure?
    ensures OnlyEligible(data, params) == OnlyEligible(data[..n], params)
    decreases |data| - n
  {
    if n < |data| {
      assert data[..n + 1][..n] == data[..n];
      PrefixFailurePropagates(data, params, n + 1);
    } else {
      assert data[..n] == data;
    }
  }

  /** One pass of the outer loop over the prefix `data[..i]`: the item at `i` aborts the call
      if its evaluation raises, and otherwise is appended iff it evaluates to keep. */
  lemma OnlyEligiblePrefixStep(data: seq<Seller>, params: Params, i: nat)
    requires i < |data| && OnlyEligible(data[..i], params).Success?
    ensures Evaluate(data[i], params).Failure? ==>
      OnlyEligible(data[..i + 1], params) == Failure(Evaluate(data[i], params).error)
    ensures Evaluate(data[i], params).Success? ==>
      OnlyEligible(data[..i + 1], params)
        == Success(OnlyEligible(data[..i], params).value + if Evaluate(data[i], params).value then [data[i]] else [])
  {
    var d := data[..i + 1];
    assert d[..|d| - 1] == data[..i] && d[|d| - 1] == data[i];
    var kept := OnlyEligible(data[..i], params).value;
    assert kept + [] == kept;
  }

  /** The source's nested loops, statement by statement, including the `break`. */
  method OnlyEligibleLoop(data: seq<Seller>, params: Params) returns (r: Result<seq<Seller>, string>)
    ensures r == OnlyEligible(data, params)
  {
    var eligibles: seq<Seller> := [];
    var i := 0;
    while i < |data|
      invariant 0 <= i <= |data|
      invariant OnlyEligible(data[..i], params) == Success(eligibles)
    {
      var item := data[i];
      assert data[..i + 1][..i] == data[..i];
      var eligible := true;
      if item.tradingPreferenceSet.Some? {
        var prefs := item.tradingPreferenceSet.value;
        var j := 0;
        while j < |Tests|
          invariant 0 <= j <= |Tests|
          invariant eligible
          invariant EvalTests(Tests[j..], prefs, params) == EvalTests(Tests, prefs, params)
        {
          var test := Tests[j];
          assert Tests[j..][1..] == Tests[j + 1..];
          if test.Key() in params && test.EnabledBy(prefs) {
            var value := ParseInt(params[test.Key()][0]);
            if value.None? {
              assert Evaluate(item, params) == Failure(test.Key());
              OnlyEligiblePrefixStep(data, params, i);
              PrefixFailurePropagates(data, params, i + 1);
              return Failure(test.Key());
            }
            if value.value < test.Threshold(prefs) {
              eligible := false;
              break;
            }
          }
          j := j + 1;
        }
      }
      assert Evaluate(item, params) == Success(eligible);
      OnlyEligiblePrefixStep(data, params, i);
      if eligible {
        eligibles := eligibles + [item];
      }
      i := i + 1;
    }
    assert data[..|data|] == data;
    return Success(eligibles);
  }
}

=== FILE: numerals.dfy ===
/** Decimal numerals: the subset of Python's `int(text)` and `str(n)` that the script relies
    on. A query parameter such as `completeRateDay30=90` reaches the filter as text and is
    converted with `int(...)`; the offline duration in a row is printed with `str(...)`. */
module Numerals {
  import opened Wrappers

  predicate IsDigit(c: char) {
    '0' <= c <= '9'
  }

  predicate AllDigits(s: string) {
    forall i :: 0 <= i < |s| ==> IsDigit(s[i])
  }

  function DigitValue(c: char): (d: nat)
    requires IsDigit(c)
    ensures d < 10
  {
    (c as int) - ('0' as int)
  }

  function DigitChar(d: nat): (c: char)
    requires d < 10
    ensures IsDigit(c) && DigitValue(c) == d
  {
    (('0' as int) + d) as char
  }

  /** Value of a run of decimal digits, most significant digit first. */
  function DigitsValue(s: string): nat
    requires AllDigits(s)
    decreases |s|
  {
    if |s| == 0 then 0 else DigitsValue(s[..|s| - 1]) * 10 + DigitValue(s[|s| - 1])
  }

  /** `str(n)` for a non-negative integer: no leading zeros, at least one digit. */
  function NatToString(n: nat): (s: string)
    ensures |s| > 0 && AllDigits(s)
    ensures |s| > 1 ==> s[0] != '0'
    decreases n
  {
    if n < 10 then [DigitChar(n)] else NatToString(n / 10) + [DigitChar(n % 10)]
  }

  /** `str(n)` for any integer: a minus sign in front of the magnitude when negative. */
  function IntToString(n: int): (s: string)
    ensures |s| > 0
    ensures n >= 0 <==> IsDigit(s[0])
  {
    if n < 0 then "-" + NatToString(-n) else NatToString(n)
  }

  /** Python's default limit on the digits of a decimal conversion (`sys.int_info.
      default_max_str_digits`, Python 3.11 onwards): `int()` of a longer numeral and `str()`
      of a longer integer raise ValueError. */
  const MaxStrDigits: nat := 4300

  /** A run of one to `MaxStrDigits` ASCII digits. */
  predicate DigitRun(s: string) {
    0 < |s| <= MaxStrDigits && AllDigits(s)
  }

  /** Text that `ParseInt` accepts: an optional sign followed by a digit run. */
  predicate IsNumeral(s: string) {
    if |s| > 0 && (s[0] == '+' || s[0] == '-') then DigitRun(s[1..]) else DigitRun(s)
  }

  /** The number of decimal digits `str(n)` prints, the sign not counted. */
  function DigitCount(n: int): nat {
    |NatToString(if n < 0 then -n else n)|
  }

  /** `int(s)` for plain decimal text; `None` where Python raises ValueError, including a
      numeral over the digit limit. Leading zeros are accepted, as in Python. */
  function ParseInt(s: string): (r: Option<int>)
    ensures r.Some? <==> IsNumeral(s)
    ensures r.Some? && |s| > 0 && s[0] == '-' ==> r.value <= 0
    ensures r.Some? && |s| > 0 && s[0] != '-' ==> r.value >= 0
  {
    if |s| > 0 && (s[0] == '+' || s[0] == '-') then
      var digits := s[1..];
      if DigitRun(digits) then
        var magnitude: int := DigitsValue(digits);
        Some(if s[0] == '-' then -magnitude else magnitude)
      else None
    else if DigitRun(s) then Some(DigitsValue(s))
    else None
  }

  lemma {:induction false} NatToStringValue(n: nat)
    ensures DigitsValue(NatToString(n)) == n
    decreases n
  {
    if n >= 10 {
      NatToStringValue(n / 10);
      var s := NatToString(n);
      assert s[..|s| - 1] == NatToString(n / 10);
    }
  }

  /** Reading back what `str(n)` printed gives `n`: the two conversions are inverse on
      every integer `str()` can print. */
  lemma ParseIntToString(n: int)
    requires DigitCount(n) <= MaxStrDigits
    ensures ParseInt(IntToString(n)) == Some(n)
  {
    var s := IntToString(n);
    if n < 0 {
      NatToStringValue(-n);
      assert s[1..] == NatToString(-n);
    } else {
      NatToStringValue(n);
    }
  }

  /** A run of zero digits only. */
  predicate AllZeros(s: string) {
    forall i :: 0 <= i < |s| ==> s[i] == '0'
  }

  lemma {:induction false} ZerosValue(zeros: string)
    requires AllZeros(zeros)
    ensures AllDigits(zeros) && DigitsValue(zeros) == 0
    decreases |zeros|
  {
    if |zeros| > 0 {
      ZerosValue(zeros[..|zeros| - 1]);
    }
  }

  lemma {:induction false} LeadingZerosValue(zeros: string, digits: string)
    requires AllZeros(zeros) && AllDigits(digits)
    ensures AllDigits(zeros + digits) && DigitsValue(zeros + digits) == DigitsValue(digits)
    decreases |digits|
  {
    if |digits| == 0 {
      assert zeros + digits == zeros;
      ZerosValue(zeros);
    } else {
      var last := |digits| - 1;
      LeadingZerosValue(zeros, digits[..last]);
      assert (zeros + digits)[..|zeros + digits| - 1] == zeros + digits[..last];
    }
  }

  /** A digit run reads as its value with or without a `+` sign, and negated after `-`. */
  lemma SignedDigitRun(digits: string)
    requires DigitRun(digits)
    ensures ParseInt(digits) == Some(DigitsValue(digits))
    ensures ParseInt("+" + digits) == Some(DigitsValue(digits))
    ensures ParseInt("-" + digits) == Some(-(DigitsValue(digits) as int))
  {
    assert ("+" + digits)[1..] == digits;
    assert ("-" + digits)[1..] == digits;
    assert IsDigit(digits[0]);
  }

  /** `int()` ignores leading zeros and a `+` sign: `int("090") == int("+90") == 90`, and
      `int("-0") == 0`. Whatever zeros precede the digits `str(n)` prints, within the digit
      limit, the value read is `n`, or `-n` after a minus sign. */
  lemma ParseIntLeadingZeros(zeros: string, n: nat)
    requires AllZeros(zeros) && |zeros| + DigitCount(n) <= MaxStrDigits
    ensures ParseInt(zeros + NatToString(n)) == Some(n)
    ensures ParseInt("+" + zeros + NatToString(n)) == Some(n)
    ensures ParseInt("-" + zeros + NatToString(n)) == Some(-(n as int))
  {
    var digits := zeros + NatToString(n);
    LeadingZerosValue(zeros, NatToString(n));
    NatToStringValue(n);
    assert DigitRun(digits);
    SignedDigitRun(digits);
    assert "+" + zeros + NatToString(n) == "+" + digits;
    assert "-" + zeros + NatToString(n) == "-" + digits;
  }
}

=== FILE: query.dfy ===
/** The caller's query parameters and the request `queryOnline` sends to the marketplace
    (bybit.py:27-51): a JSON body built from the parameters with fixed defaults, and the
    request headers. The POST itself is outside the model. */
module Query {
  import opened Wrappers

  /** Query parameters as `parse_qs` produces them: every key present carries one or more
      values, so taking the first value of a present key never fails. */
  type Params = m: map<string, seq<string>> | forall k :: k in m ==> |m[k]| > 0 witness map[]

  /** `params.get(key, [default])[0]`. */
  function FirstOr(params: Params, key: string, default: string): string {
    if key in params then params[key][0] else default
  }

  /** The JSON body of the online-sellers query, one field per key of the source's dict. */
  datatype Body = Body(
    userId: string,
    canTrade: bool,
    tokenId: string,
    currencyId: string,
    payment: seq<string>,
    side: string,
    size: string,
    page: string,
    amount: string,
    vaMaker: bool,
    bulkMaker: bool,
    verificationFilter: int,
    sortType: string,
    paymentPeriod: seq<string>,
    itemRegion: int)

  datatype Header = Header(name: string, value: string)

  datatype OnlineRequest = OnlineRequest(body: Body, headers: seq<Header>)

  const DefaultPayment: seq<string> := ["64", "585"]
  const JsonContentType: string := "application/json;charset=UTF-8"

  /** The keys `queryOnline` reads. */
  const RequestKeys: set<string> := {"canTrade", "tokenId", "currencyId", "payment", "amount", "secure-token"}

  /** The value of the first header called `name`. */
  function HeaderValue(headers: seq<Header>, name: string): Option<string>
    decreases |headers|
  {
    if |headers| == 0 then None
    else if headers[0].name == name then Some(headers[0].value)
    else HeaderValue(headers[1..], name)
  }

  /** The request `queryOnline(params)` sends. */
  function OnlineQuery(params: Params): (r: OnlineRequest)
    // Absent keys take the defaults of bybit.py:30-37; present ones their first value.
    ensures r.body.tokenId == (if "tokenId" in params then params["tokenId"][0] else "USDT")
    ensures r.body.currencyId == (if "currencyId" in params then params["currencyId"][0] else "RUB")
    ensures r.body.amount == (if "amount" in params then params["amount"][0] else "30000")
    // `payment` is the only list-valued parameter: it is forwarded whole.
    ensures r.body.payment == (if "payment" in params then params["payment"] else DefaultPayment)
    ensures r.body.canTrade <==> ("canTrade" !in params || params["canTrade"][0] == "1")
    ensures HeaderValue(r.headers, "content-type") == Some(JsonContentType)
    ensures HeaderValue(r.headers, "Cookie").Some? <==> "secure-token" in params
    ensures "secure-token" in params ==>
      HeaderValue(r.headers, "Cookie") == Some("secure-token=" + params["secure-token"][0])
    ensures forall k :: 0 <= k < |r.headers| ==> r.headers[k].name in {"content-type", "Cookie"}
    // The headers form a dict: the content type, plus the cookie when a token is given.
    ensures |r.headers| == if "secure-token" in params then 2 else 1
  {
    var body := Body(
      userId := "",
      canTrade := FirstOr(params, "canTrade", "1") == "1",
      tokenId := FirstOr(params, "tokenId", "USDT"),
      currencyId := FirstOr(params, "currencyId", "RUB"),
      payment := if "payment" in params then params["payment"] else DefaultPayment,
      side := "0",
      size := "100",
      page := "1",
      amount := FirstOr(params, "amount", "30000"),
      vaMaker := false,
      bulkMaker := false,
      verificationFilter := 0,
      sortType := "TRADE_PRICE",
      paymentPeriod := [],
      itemRegion := 1);
    var base := [Header("content-type", JsonContentType)];
    var headers :=
      if "secure-token" in params then base + [Header("Cookie", "secure-token=" + params["secure-token"][0])]
      else base;
    OnlineRequest(body, headers)
  }

  /** The body with every parameter-derived field blanked out. */
  function FixedPart(b: Body): Body {
    b.(canTrade := false, tokenId := "", currencyId := "", payment := [], amount := "")
  }

  /** The fixed fields (user id, side, size, page, maker flags, verification filter, sort
      type, payment period, region) are the same whatever the parameters, and carry the
      values of bybit.py:29 and 38-44. */
  lemma FixedFieldsIgnoreParams(p1: Params, p2: Params)
    ensures FixedPart(OnlineQuery(p1).body) == FixedPart(OnlineQuery(p2).body)
    ensures OnlineQuery(p1).body.side == "0" && OnlineQuery(p1).body.size == "100"
    ensures OnlineQuery(p1).body.page == "1" && OnlineQuery(p1).body.sortType == "TRADE_PRICE"
    ensures OnlineQuery(p1).body.itemRegion == 1 && OnlineQuery(p1).body.paymentPeriod == []
    ensures OnlineQuery(p1).body.userId == "" && OnlineQuery(p1).body.verificationFilter == 0
    ensures !OnlineQuery(p1).body.vaMaker && !OnlineQuery(p1).body.bulkMaker
  {
  }

  /** Only the six keys `queryOnline` reads influence the request. */
  lemma OnlineQueryReadsOnlyRequestKeys(p1: Params, p2: Params)
    requires forall k :: k in RequestKeys ==> (k in p1 <==> k in p2)
    requires forall k :: k in RequestKeys && k in p1 ==> p1[k] == p2[k]
    ensures OnlineQuery(p1) == OnlineQuery(p2)
  {
    assert "canTrade" in RequestKeys && "tokenId" in RequestKeys && "currencyId" in RequestKeys;
    assert "payment" in RequestKeys && "amount" in RequestKeys && "secure-token" in RequestKeys;
  }

  /** Without parameters the query asks for USDT against RUB, payment methods 64 and 585,
      amount 30000, tradable offers only, and sends no cookie. */
  lemma DefaultOnlineQuery()
    ensures OnlineQuery(map[]).body.canTrade
    ensures OnlineQuery(map[]).body.tokenId == "USDT" && OnlineQuery(map[]).body.currencyId == "RUB"
    ensures OnlineQuery(map[]).body.payment == ["64", "585"] && OnlineQuery(map[]).body.amount == "30000"
    ensures HeaderValue(OnlineQuery(map[]).headers, "Cookie") == None
  {
  }
}

=== FILE: render.dfy ===
/** The presentation half of the script (bybit.py:62-89): one HTML table row per seller,
    rows joined by newlines, and the rows substituted for the placeholder of a template.
    The template text and the clock reading `now` (whole seconds) are parameters; nothing
    is escaped, so seller text reaches the page verbatim. */
module Render {
  import opened Wrappers
  import opened Numerals
  import opened Text
  import opened Sellers

  const ProfilePrefix: string := "https://www.bybit.com/en/fiat/trade/otc/profile/"
  const ProfileSuffix: string := "/USDT/RUB/item"

  /** The placeholder `make_html` replaces. */
  const Marker: string := "<!--%TABLE_BODY%-->"

  /** The seller id a profile URL points at, if it has the profile URL shape. */
  function ProfileId(url: string): Option<string> {
    if |url| >= |ProfilePrefix| + |ProfileSuffix|
       && url[..|ProfilePrefix|] == ProfilePrefix
       && url[|url| - |ProfileSuffix|..] == ProfileSuffix
    then Some(url[|ProfilePrefix|..|url| - |ProfileSuffix|])
    else None
  }

  /** `row_user_url(row)`: the seller's public profile page. The link identifies the seller:
      the id is read back from it unchanged, so sellers with different ids get different
      links. */
  function RowUserUrl(s: Seller): (url: string)
    ensures ProfileId(url) == Some(s.userMaskId)
  {
    var url := ProfilePrefix + s.userMaskId + ProfileSuffix;
    assert url[..|ProfilePrefix|] == ProfilePrefix;
    assert url[|url| - |ProfileSuffix|..] == ProfileSuffix;
    assert url[|ProfilePrefix|..|url| - |ProfileSuffix|] == s.userMaskId;
    url
  }

  /** `int(time.time() - t) // 60` for a whole-second clock: whole minutes since `t`,
      rounded down (towards minus infinity, as Python's `//`). */
  function OfflineMinutes(now: int, logout: int): (m: int)
    ensures m * 60 <= now - logout < m * 60 + 60
  {
    (now - logout) / 60
  }

  const OfflineOpen: string := "offline ("
  const OfflineClose: string := " mins)"

  /** `offlineSince(t)`: the number between the parentheses reads back as the minute count. */
  function OfflineSince(now: int, logout: int): (shown: string)
    ensures |shown| > |OfflineOpen| + |OfflineClose|
    ensures shown[..|OfflineOpen|] == OfflineOpen && shown[|shown| - |OfflineClose|..] == OfflineClose
    ensures DigitCount(OfflineMinutes(now, logout)) <= MaxStrDigits ==>
      ParseInt(shown[|OfflineOpen|..|shown| - |OfflineClose|]) == Some(OfflineMinutes(now, logout))
  {
    var digits := IntToString(OfflineMinutes(now, logout));
    var shown := OfflineOpen + digits + OfflineClose;
    assert shown[|OfflineOpen|..|shown| - |OfflineClose|] == digits;
    assert shown[..|OfflineOpen|] == OfflineOpen;
    assert shown[|shown| - |OfflineClose|..] == OfflineClose;
    var m := OfflineMinutes(now, logout);
    assert DigitCount(m) <= MaxStrDigits ==> ParseInt(digits) == Some(m) by {
      if DigitCount(m) <= MaxStrDigits {
        ParseIntToString(m);
      }
    }
    shown
  }

  function StatusColor(s: Seller): string {
    if s.isOnline then "green" else "orange"
  }

  function StatusText(s: Seller, now: int): string {
    if s.isOnline then "online" else OfflineSince(now, s.lastLogoutTime)
  }

  const RowOpen: string := "\n    <tr class=\"tr-data\">"
  const RowEnd: string := "\n    </tr>\n    "

  /** The link to the seller's profile, with the nickname as its text. */
  function Anchor(s: Seller): string {
    "href=\"" + RowUserUrl(s) + "\">" + s.nickName + "</a>"
  }

  /** The status cell's colour attribute and text, up to the end of its line. */
  function Status(s: Seller, now: int): string {
    "\"color: " + StatusColor(s) + "\">" + StatusText(s, now) + "\n"
  }

  function Cell(text: string): string {
    "<td>" + text + "</td>"
  }

  /** The consecutive fragments of `make_row(row)`'s f-string between the row's opening
      and closing lines. The status cell is left unclosed, as in the source. */
  function RowBody(s: Seller, now: int): seq<string> {
    [ "\n        <td><a target=\"_blank\" rel=\"noopener noreferrer\" ", Anchor(s),
      "</td>\n        <td style=", Status(s, now),
      "        ", Cell(s.price),
      "\n        ", Cell(s.minAmount + " - " + s.maxAmount),
      "\n        ", Cell(s.remark) ]
  }

  /** `make_row(row)`. */
  function MakeRow(s: Seller, now: int): string {
    RowOpen + Join("", RowBody(s, now)) + RowEnd
  }

  lemma BodyPieceShown(s: Seller, now: int, k: nat)
    requires k < |RowBody(s, now)|
    ensures Contains(MakeRow(s, now), RowBody(s, now)[k])
  {
    var body := Join("", RowBody(s, now));
    JoinTiles("", RowBody(s, now), k);
    var i := PartOffset("", RowBody(s, now), k);
    OccursInSuffix(RowOpen, body, RowBody(s, now)[k], i);
    OccursInPrefix(RowOpen + body, RowEnd, RowBody(s, now)[k], |RowOpen| + i);
  }

  /** A row opens the table row at its start and closes it at its end. */
  lemma MakeRowFrame(s: Seller, now: int)
    ensures Occurs(MakeRow(s, now), RowOpen, 0)
    ensures Occurs(MakeRow(s, now), RowEnd, |MakeRow(s, now)| - |RowEnd|)
  {
    var r := MakeRow(s, now);
    var body := Join("", RowBody(s, now));
    assert r[0..|RowOpen|] == RowOpen;
    assert r[|r| - |RowEnd|..|r|] == RowEnd;
  }

  /** A row carries the profile link with the nickname, the status, the price, the amount
      range and the remark, each verbatim: nothing is escaped. */
  lemma MakeRowFields(s: Seller, now: int)
    ensures Contains(MakeRow(s, now), "href=\"" + RowUserUrl(s) + "\">" + s.nickName + "</a>")
    ensures Contains(MakeRow(s, now), Status(s, now))
    ensures Contains(MakeRow(s, now), Cell(s.price))
    ensures Contains(MakeRow(s, now), Cell(s.minAmount + " - " + s.maxAmount))
    ensures Contains(MakeRow(s, now), Cell(s.remark))
  {
    BodyPieceShown(s, now, 1);
    BodyPieceShown(s, now, 3);
    BodyPieceShown(s, now, 5);
    BodyPieceShown(s, now, 7);
    BodyPieceShown(s, now, 9);
  }

  /** The status cell tells online sellers from offline ones: the text is exactly "online"
      and the colour green for an online seller, and never for an offline one. */
  lemma {:induction false} StatusDistinguishes(s: Seller, now: int)
    ensures StatusText(s, now) == "online" <==> s.isOnline
    ensures StatusColor(s) == "green" <==> s.isOnline
  {
    if !s.isOnline {
      var t := StatusText(s, now);
      assert t[1] == 'f';
    }
  }

  /** The fragments `make_rows` joins: one per seller, in input order. */
  function Rows(data: seq<Seller>, now: int): (rows: seq<string>)
    ensures |rows| == |data|
    decreases |data|
  {
    if |data| == 0 then [] else [MakeRow(data[0], now)] + Rows(data[1..], now)
  }

  lemma {:induction false} RowsAt(data: seq<Seller>, now: int, i: nat)
    requires i < |data|
    ensures Rows(data, now)[i] == MakeRow(data[i], now)
    decreases i
  {
    if i > 0 {
      RowsAt(data[1..], now, i - 1);
    }
  }

  /** `make_rows(data)`. */
  function MakeRows(data: seq<Seller>, now: int): string {
    Join("\n", Rows(data, now))
  }

  /** The rows text is tiled by the sellers' rows in input order: the row of `data[i]`
      starts where the previous row and one newline end, and the last row ends the text. */
  lemma {:induction false} MakeRowsTiles(data: seq<Seller>, now: int, i: nat)
    requires i < |data|
    ensures Occurs(MakeRows(data, now), MakeRow(data[i], now), PartOffset("\n", Rows(data, now), i))
    ensures i + 1 < |data| ==>
      Occurs(MakeRows(data, now), "\n", PartOffset("\n", Rows(data, now), i) + |MakeRow(data[i], now)|)
    ensures i + 1 < |data| ==>
      PartOffset("\n", Rows(data, now), i + 1) == PartOffset("\n", Rows(data, now), i) + |MakeRow(data[i], now)| + 1
    ensures i + 1 == |data| ==>
      PartOffset("\n", Rows(data, now), i) + |MakeRow(data[i], now)| == |MakeRows(data, now)|
  {
    RowsAt(data, now, i);
    LinesTiles(Rows(data, now), i, MakeRow(data[i], now), MakeRows(data, now));
  }

  /** `JoinTiles` for newline-joined text, with the part and the text named. */
  lemma LinesTiles(rows: seq<string>, i: nat, row: string, text: string)
    requires i < |rows| && rows[i] == row && text == Join("\n", rows)
    ensures Occurs(text, row, PartOffset("\n", rows, i))
    ensures i + 1 < |rows| ==> Occurs(text, "\n", PartOffset("\n", rows, i) + |row|)
    ensures i + 1 < |rows| ==> PartOffset("\n", rows, i + 1) == PartOffset("\n", rows, i) + |row| + 1
    ensures i + 1 == |rows| ==> PartOffset("\n", rows, i) + |row| == |text|
  {
    JoinTiles("\n", rows, i);
  }

  lemma {:induction false} RowsAppend(a: seq<Seller>, b: seq<Seller>, now: int)
    ensures Rows(a + b, now) == Rows(a, now) + Rows(b, now)
  {
    forall i | 0 <= i < |a| + |b|
      ensures Rows(a + b, now)[i] == (Rows(a, now) + Rows(b, now))[i]
    {
      RowsAt(a + b, now, i);
      if i < |a| {
        RowsAt(a, now, i);
        assert (a + b)[i] == a[i];
      } else {
        RowsAt(b, now, i - |a|);
        assert (a + b)[i] == b[i - |a|];
      }
    }
  }

  /** No sellers, no rows; rendering a concatenation renders each part, newline between. */
  lemma MakeRowsAppend(a: seq<Seller>, b: seq<Seller>, now: int)
    ensures MakeRows([], now) == ""
    ensures |a| > 0 && |b| > 0 ==> MakeRows(a + b, now) == MakeRows(a, now) + "\n" + MakeRows(b, now)
    ensures |a| == 1 ==> MakeRows(a, now) == MakeRow(a[0], now)
  {
    if |a| > 0 && |b| > 0 {
      RowsAppend(a, b, now);
      JoinAppend("\n", Rows(a, now), Rows(b, now));
    }
  }

  /** `make_html(data)` with the template's text as a parameter. */
  function MakeHtml(template: string, data: seq<Seller>, now: int): (page: string)
    ensures page == Join(MakeRows(data, now), Split(template, Marker))
  {
    ReplaceAllIsJoinOfSplit(template, Marker, MakeRows(data, now));
    ReplaceAll(template, Marker, MakeRows(data, now))
  }

  /** A template without the placeholder is returned unchanged. */
  lemma MakeHtmlWithoutMarker(template: string, data: seq<Seller>, now: int)
    requires !Contains(template, Marker)
    ensures MakeHtml(template, data, now) == template
  {
    ReplaceAllAbsent(template, Marker, MakeRows(data, now));
  }

  /** A template with exactly one placeholder gets the rows in its place, the rest intact. */
  lemma MakeHtmlSingleMarker(before: string, after: string, data: seq<Seller>, now: int)
    requires forall i :: Occurs(before + Marker + after, Marker, i) ==> i == |before|
    ensures MakeHtml(before + Marker + after, data, now) == before + MakeRows(data, now) + after
  {
    ReplaceAllSingle(before, Marker, after, MakeRows(data, now));
  }

  /** Every placeholder is replaced: the page is the template's placeholder-free pieces
      joined with the rows. */
  lemma MakeHtmlEveryMarker(template: string, data: seq<Seller>, now: int)
    ensures MakeHtml(template, data, now) == Join(MakeRows(data, now), Split(template, Marker))
    ensures forall k :: 0 <= k < |Split(template, Marker)| - 1 ==> EndsAtFirstMatch(Split(template, Marker)[k], Marker)
    ensures !Contains(Split(template, Marker)[|Split(template, Marker)| - 1], Marker)
    ensures Join(Marker, Split(template, Marker)) == template
  {
    SplitPieces(template, Marker);
  }
}

=== FILE: sellers.dfy ===
/** Seller records as the marketplace returns them in `result.items` and the script reads
    them (bybit.py:62-110). Only the fields the script touches are modelled. */
module Sellers {
  import opened Wrappers

  /** A JSON scalar, the shape of the `has...` enable flags. */
  datatype JsonScalar = JsonNumber(n: int) | JsonBool(b: bool) | JsonText(s: string) | JsonNull

  /** Python's `value == 1`: the number 1, and also `True`, since `True == 1` in Python. */
  predicate EqualsOne(v: JsonScalar) {
    v == JsonNumber(1) || v == JsonBool(true)
  }

  /** The nested `tradingPreferenceSet`: the seller's own minimum requirements on a buyer,
      each with a flag saying whether the seller enforces it. */
  datatype Preferences = Preferences(
    hasCompleteRateDay30: JsonScalar,
    completeRateDay30: int,
    hasOrderFinishNumberDay30: JsonScalar,
    orderFinishNumberDay30: int)

  datatype Seller = Seller(
    userMaskId: string,
    nickName: string,
    isOnline: bool,
    lastLogoutTime: int,
    price: string,
    minAmount: string,
    maxAmount: string,
    remark: string,
    tradingPreferenceSet: Option<Preferences>)
}

=== FILE: server.dfy ===
/** One connection of the listener (bybit.py:113-161), without the socket: the request text
    comes in, the response text goes out. The query-string parser, the marketplace call and
    the template file are parameters; every failure becomes the same 500 response. */
module Server {
  import opened Wrappers
  import opened Text
  import opened Query
  import opened Sellers
  import opened Eligibility
  import opened Render

  const OkStatusLine: string := "HTTP/1.1 200 OK"
  const ErrorStatusLine: string := "HTTP/1.1 500"
  const ContentTypeHeader: string := "Content-Type: text/html"
  /** The empty line that ends the header block, with the line break before it. */
  const BlankLine: string := "\r\n\r\n"
  /** The line break ending the status line, the one header, and the blank line. */
  const HeaderLines: string := "\r" + HeaderRest
  const HeaderRest: string := "\n" + ContentTypeHeader + BlankLine

  const OkHead: string := OkStatusLine + HeaderLines
  const ErrorHead: string := ErrorStatusLine + HeaderLines

  /** The message every failed request receives. */
  const ServeFailureMessage: string := "Unable to serve. Check all parameters."

  /** The payload of a response as a client reads it: everything after the first blank
      line; `None` when the text has no blank line. */
  function ResponseBody(response: string): Option<string> {
    var pieces := Split(response, BlankLine);
    if |pieces| < 2 then None else Some(Join(BlankLine, pieces[1..]))
  }

  /** The header block of a response as a client reads it: everything before the first
      blank line; `None` when the text has no blank line. */
  function ResponseHead(response: string): Option<string> {
    var pieces := Split(response, BlankLine);
    if |pieces| < 2 then None else Some(pieces[0])
  }

  /** A client that reads the header block and the body has read the whole response: the
      two readings and the blank line between them give the text back. */
  lemma ResponseHeadAndBody(response: string)
    requires ResponseHead(response).Some? || ResponseBody(response).Some?
    ensures ResponseHead(response).Some? && ResponseBody(response).Some?
    ensures response == ResponseHead(response).value + BlankLine + ResponseBody(response).value
  {
    var pieces := Split(response, BlankLine);
    SplitPieces(response, BlankLine);
    assert Join(BlankLine, pieces) == pieces[0] + BlankLine + Join(BlankLine, pieces[1..]);
  }

  /** The header block ends at its blank line: a status line without line breaks followed
      by the content-type header holds no earlier blank line. */
  lemma HeadEndsAtBlankLine(status: string)
    requires NoLineBreak(status)
    ensures EndsAtFirstMatch(status + "\r" + "\n" + ContentTypeHeader, BlankLine)
  {
    var piece := status + "\r" + "\n" + ContentTypeHeader;
    assert '\r' !in ContentTypeHeader;
    forall j | 0 <= j < |piece| ensures !Occurs(piece + BlankLine, BlankLine, j) {
      var t := piece + BlankLine;
      if j + |BlankLine| <= |t| {
        var w := t[j..j + |BlankLine|];
        assert w[0] == t[j] && w[1] == t[j + 1] && w[2] == t[j + 2];
        if j < |status| {
          assert t[j] == status[j];
        } else if j == |status| {
          assert t[j + 2] == ContentTypeHeader[0];
        } else if j > |status| + 1 {
          assert t[j] == ContentTypeHeader[j - |status| - 2];
        }
        assert w != BlankLine;
      }
    }
  }

  /** Whatever the body, a client reads back the status line and the content-type header as
      the header block, and exactly that body after it. */
  lemma ResponseBodyAfterHead(status: string, body: string)
    requires NoLineBreak(status)
    ensures ResponseHead(status + HeaderLines + body) == Some(status + "\r\n" + ContentTypeHeader)
    ensures ResponseBody(status + HeaderLines + body) == Some(body)
  {
    var piece := status + "\r" + "\n" + ContentTypeHeader;
    assert status + HeaderLines + body == piece + BlankLine + body;
    assert piece == status + "\r\n" + ContentTypeHeader;
    HeadEndsAtBlankLine(status);
    SplitAfterFirstMatch(piece, BlankLine, body);
    SplitPieces(body, BlankLine);
    assert ([piece] + Split(body, BlankLine))[1..] == Split(body, BlankLine);
  }

  /** A status line made of the tokens `tokens` has status code `tokens[1]`, whatever
      follows the header block; its line holds no line break. */
  lemma StatusCodeAfter(tokens: seq<string>, line: string, body: string)
    requires |tokens| >= 2 && forall k :: 0 <= k < |tokens| ==> IsWord(tokens[k])
    requires line == Join(" ", tokens)
    ensures NoLineBreak(line)
    ensures SecondToken(line + HeaderLines + body) == Some(tokens[1])
  {
    JoinedWordsNoLineBreak(tokens);
    StatusLineBreak(line, body);
    SecondTokenOfLine(tokens, '\r', HeaderRest + body, line + HeaderLines + body);
  }

  /** The status line of a framed response ends at a carriage return. */
  lemma StatusLineBreak(line: string, body: string)
    ensures line + HeaderLines + body == line + ['\r'] + (HeaderRest + body)
  {
  }

  /** The framing of `make_response`: a client reads the `HTTP/1.1 200 OK` status line and
      the HTML content type as the header block, status code 200, and after the header
      block exactly the page. */
  function SuccessResponse(page: string): (r: string)
    ensures ResponseHead(r) == Some(OkStatusLine + "\r\n" + ContentTypeHeader)
    ensures SecondToken(r) == Some("200")
    ensures ResponseBody(r) == Some(page)
  {
    StatusLinesAreTokens();
    StatusCodeAfter(OkStatusTokens, OkStatusLine, page);
    ResponseBodyAfterHead(OkStatusLine, page);
    OkHead + page
  }

  /** `http_error(message)`: a client reads the `HTTP/1.1 500` status line and the HTML
      content type as the header block, status code 500, and after the header block
      exactly the message. */
  function HttpError(message: string := ""): (r: string)
    ensures ResponseHead(r) == Some(ErrorStatusLine + "\r\n" + ContentTypeHeader)
    ensures SecondToken(r) == Some("500")
    ensures ResponseBody(r) == Some(message)
  {
    StatusLinesAreTokens();
    StatusCodeAfter(ErrorStatusTokens, ErrorStatusLine, message);
    ResponseBodyAfterHead(ErrorStatusLine, message);
    ErrorHead + message
  }

  /** `text.splitlines()[0].strip().split()[1]`: the second token of the first line, which
      is the request target of an HTTP request line and the status code of a response.
      `None` where Python raises IndexError: no line at all, or fewer than two tokens. The
      `strip()` makes no difference. */
  function SecondToken(text: string): (r: Option<string>)
    ensures r.Some? <==> FirstLine(text).Some? && |Words(FirstLine(text).value)| >= 2
    ensures r.Some? ==> r.value == Words(FirstLine(text).value)[1] && IsWord(r.value)
  {
    match FirstLine(text)
    case None => None
    case Some(line) =>
      WordsOfStrip(line);
      var tokens := Words(Strip(line));
      if |tokens| < 2 then None else Some(tokens[1])
  }

  /** The request target of line 151. */
  function RequestTarget(request: string): Option<string> {
    SecondToken(request)
  }

  lemma JoinedWordsNoLineBreak(ws: seq<string>)
    requires forall k :: 0 <= k < |ws| ==> IsWord(ws[k])
    ensures NoLineBreak(Join(" ", ws))
  {
    var j := Join(" ", ws);
    forall i | 0 <= i < |j| ensures !IsLineBreak(j[i]) {
      JoinedWordsCharacter(ws, i);
    }
  }

  lemma {:induction false} JoinedWordsCharacter(ws: seq<string>, i: nat)
    requires forall k :: 0 <= k < |ws| ==> IsWord(ws[k])
    requires i < |Join(" ", ws)|
    ensures !IsLineBreak(Join(" ", ws)[i])
    decreases |ws|
  {
    if |ws| > 1 {
      var rest := Join(" ", ws[1..]);
      assert Join(" ", ws) == ws[0] + " " + rest;
      if i > |ws[0]| {
        assert Join(" ", ws)[i] == rest[i - |ws[0]| - 1];
        JoinedWordsCharacter(ws[1..], i - |ws[0]| - 1);
      }
    }
  }

  /** For a first line made of tokens separated by single spaces, the second token is found
      whatever follows the line break, and a line of fewer than two tokens yields none. */
  lemma SecondTokenOfLine(ws: seq<string>, brk: char, rest: string, text: string)
    requires forall k :: 0 <= k < |ws| ==> IsWord(ws[k])
    requires IsLineBreak(brk)
    requires text == Join(" ", ws) + [brk] + rest
    ensures SecondToken(text) == if |ws| < 2 then None else Some(ws[1])
  {
    var line := Join(" ", ws);
    JoinedWordsNoLineBreak(ws);
    FirstLineOf(line, brk, rest);
    WordsOfStrip(line);
    WordsOfJoin(ws);
  }

  /** A request line `GET /?amount=5000 HTTP/1.1` yields its target. */
  lemma RequestTargetOfRequestLine(verb: string, target: string, version: string, rest: string)
    requires IsWord(verb) && IsWord(target) && IsWord(version)
    ensures RequestTarget(verb + " " + target + " " + version + "\r\n" + rest) == Some(target)
  {
    var ws := [verb, target, version];
    assert ws[1..] == [target, version];
    assert [target, version][1..] == [version];
    assert Join(" ", [target, version]) == target + " " + version;
    assert Join(" ", ws) == verb + " " + target + " " + version;
    assert verb + " " + target + " " + version + "\r\n" + rest == Join(" ", ws) + ['\r'] + ("\n" + rest);
    SecondTokenOfLine(ws, '\r', "\n" + rest, verb + " " + target + " " + version + "\r\n" + rest);
  }

  const OkStatusTokens: seq<string> := ["HTTP/1.1", "200", "OK"]
  const ErrorStatusTokens: seq<string> := ["HTTP/1.1", "500"]

  lemma StatusLinesAreTokens()
    ensures Join(" ", OkStatusTokens) == OkStatusLine
    ensures Join(" ", ErrorStatusTokens) == ErrorStatusLine
    ensures forall k :: 0 <= k < |OkStatusTokens| ==> IsWord(OkStatusTokens[k])
    ensures forall k :: 0 <= k < |ErrorStatusTokens| ==> IsWord(ErrorStatusTokens[k])
  {
    assert OkStatusTokens[1..] == ["200", "OK"];
    assert ["200", "OK"][1..] == ["OK"];
    assert ErrorStatusTokens[1..] == ["500"];
    assert IsWord(OkStatusTokens[0]) && IsWord(OkStatusTokens[1]) && IsWord(OkStatusTokens[2]);
    assert IsWord(ErrorStatusTokens[0]) && IsWord(ErrorStatusTokens[1]);
  }

  /** Why a request was answered with the error response. */
  datatype ServeError =
    | MalformedRequest            // no request target on the first line, or `urlparse` rejects it
    | RemoteFailure               // the marketplace call failed or reported an error code
    | UnreadableThreshold(key: string)  // `int()` rejected a threshold parameter
    | TemplateUnreadable          // the template file could not be read

  /** The page `make_response` renders, or the first failure on the way, in the order the
      source meets them: request line, query string, marketplace call, filter, template. */
  function Page(request: string, parseQuery: string -> Option<Params>,
                fetch: OnlineRequest -> Option<seq<Seller>>,
                template: Option<string>, now: int): Result<string, ServeError>
  {
    match RequestTarget(request)
    case None => Failure(MalformedRequest)
    case Some(location) =>
      match parseQuery(location)
      case None => Failure(MalformedRequest)
      case Some(params) =>
        match fetch(OnlineQuery(params))
        case None => Failure(RemoteFailure)
        case Some(items) =>
          match OnlyEligible(items, params)
          case Failure(key) => Failure(UnreadableThreshold(key))
          case Success(eligible) =>
            match template
            case None => Failure(TemplateUnreadable)
            case Some(text) => Success(MakeHtml(text, eligible, now))
  }

  /** The text sent back on one connection. Every connection gets a whole response, never a
      mix: the 200 header block with the rendered page as its body, or the 500 header block
      with the fixed message as its body. */
  function Serve(request: string, parseQuery: string -> Option<Params>,
                 fetch: OnlineRequest -> Option<seq<Seller>>,
                 template: Option<string>, now: int): (r: string)
    ensures Page(request, parseQuery, fetch, template, now).Success? ==>
      && ResponseHead(r) == Some(OkStatusLine + "\r\n" + ContentTypeHeader)
      && SecondToken(r) == Some("200")
      && ResponseBody(r) == Some(Page(request, parseQuery, fetch, template, now).value)
    ensures Page(request, parseQuery, fetch, template, now).Failure? ==>
      && ResponseHead(r) == Some(ErrorStatusLine + "\r\n" + ContentTypeHeader)
      && SecondToken(r) == Some("500")
      && ResponseBody(r) == Some(ServeFailureMessage)
  {
    match Page(request, parseQuery, fetch, template, now)
    case Success(page) => SuccessResponse(page)
    case Failure(_) => HttpError(ServeFailureMessage)
  }

  /** A request without a target, a target `urlparse` rejects, a failed marketplace call, an
      unreadable threshold value or a missing template each give the error response. */
  lemma FailuresGiveError(request: string, parseQuery: string -> Option<Params>,
                          fetch: OnlineRequest -> Option<seq<Seller>>,
                          template: Option<string>, now: int)
    requires || RequestTarget(request).None?
             || parseQuery(RequestTarget(request).value).None?
             || fetch(OnlineQuery(parseQuery(RequestTarget(request).value).value)).None?
             || OnlyEligible(fetch(OnlineQuery(parseQuery(RequestTarget(request).value).value)).value,
                             parseQuery(RequestTarget(request).value).value).Failure?
             || template.None?
    ensures Serve(request, parseQuery, fetch, template, now) == HttpError(ServeFailureMessage)
  {
  }

  /** On success the page is the template with the eligible sellers' rows in place of its one
      placeholder: every eligible seller, as often as the marketplace listed it, in the
      marketplace's order, and no other. */
  lemma ServedPageShowsEligible(request: string, parseQuery: string -> Option<Params>,
                                fetch: OnlineRequest -> Option<seq<Seller>>,
                                before: string, after: string, now: int,
                                location: string, params: Params, items: seq<Seller>)
    requires forall i :: Occurs(before + Marker + after, Marker, i) ==> i == |before|
    requires RequestTarget(request) == Some(location)
    requires parseQuery(location) == Some(params)
    requires fetch(OnlineQuery(params)) == Some(items)
    requires OnlyEligible(items, params).Success?
    ensures Serve(request, parseQuery, fetch, Some(before + Marker + after), now)
            == SuccessResponse(before + MakeRows(FilterEligible(items, params), now) + after)
  {
    OnlyEligibleIsFilter(items, params);
    MakeHtmlSingleMarker(before, after, FilterEligible(items, params), now);
  }

  /** A request whose query names neither threshold shows every seller the marketplace
      returned. */
  lemma NoThresholdsShowsAll(request: string, parseQuery: string -> Option<Params>,
                             fetch: OnlineRequest -> Option<seq<Seller>>, text: string, now: int,
                             location: string, params: Params, items: seq<Seller>)
    requires RequestTarget(request) == Some(location)
    requires parseQuery(location) == Some(params)
    requires fetch(OnlineQuery(params)) == Some(items)
    requires CompleteRate.Key() !in params && OrderFinish.Key() !in params
    ensures Serve(request, parseQuery, fetch, Some(text), now) == SuccessResponse(MakeHtml(text, items, now))
  {
    NoThresholdKeysKeepAll(items, params);
  }
}

=== FILE: text.dfy ===
/** The Python string primitives the script uses, on `string` = `seq<char>`:
    `sep.join(parts)`, `s.replace(pat, rep)`, `s.splitlines()`, `s.strip()` and `s.split()`.
    `Split` (Python's `s.split(pat)`) is not called by the script; it serves as the
    reference against which `ReplaceAll` is characterised. */
module Text {
  import opened Wrappers

  // ---------------------------------------------------------------------------------------
  // Occurrences

  /** `pat` occurs in `s` starting at index `i`. */
  predicate Occurs(s: string, pat: string, i: int) {
    0 <= i && i + |pat| <= |s| && s[i..i + |pat|] == pat
  }

  predicate Contains(s: string, pat: string) {
    exists i | 0 <= i <= |s| - |pat| :: Occurs(s, pat, i)
  }

  /** In `piece + pat` the first occurrence of `pat` is the one appended at the end: a
      left-to-right scan over `piece + pat + ...` finds nothing earlier. */
  predicate EndsAtFirstMatch(piece: string, pat: string) {
    forall j :: 0 <= j < |piece| ==> !Occurs(piece + pat, pat, j)
  }

  lemma OccursShift(c: char, s: string, pat: string, i: int)
    requires Occurs(s, pat, i)
    ensures Occurs([c] + s, pat, i + 1)
  {
    assert ([c] + s)[i + 1..i + 1 + |pat|] == s[i..i + |pat|];
  }

  lemma OccursInPrefix(s: string, tail: string, pat: string, i: int)
    requires Occurs(s, pat, i)
    ensures Occurs(s + tail, pat, i)
  {
    assert (s + tail)[i..i + |pat|] == s[i..i + |pat|];
  }

  lemma OccursInSuffix(head: string, s: string, pat: string, i: int)
    requires Occurs(s, pat, i)
    ensures Occurs(head + s, pat, |head| + i)
  {
    assert (head + s)[|head| + i..|head| + i + |pat|] == s[i..i + |pat|];
  }

  // ---------------------------------------------------------------------------------------
  // sep.join(parts)

  /** `sep.join(parts)`. */
  function Join(sep: string, parts: seq<string>): string
    decreases |parts|
  {
    if |parts| == 0 then ""
    else if |parts| == 1 then parts[0]
    else parts[0] + sep + Join(sep, parts[1..])
  }

  /** Where `parts[i]` starts inside `Join(sep, parts)`. */
  function PartOffset(sep: string, parts: seq<string>, i: nat): nat
    requires i < |parts|
    decreases i
  {
    if i == 0 then 0 else |parts[0]| + |sep| + PartOffset(sep, parts[1..], i - 1)
  }

  /** The joined text is tiled by the parts, in order, with one separator between
      consecutive parts and nothing before the first or after the last. */
  lemma {:induction false} JoinTiles(sep: string, parts: seq<string>, i: nat)
    requires i < |parts|
    ensures Occurs(Join(sep, parts), parts[i], PartOffset(sep, parts, i))
    ensures i + 1 < |parts| ==> Occurs(Join(sep, parts), sep, PartOffset(sep, parts, i) + |parts[i]|)
    ensures i + 1 < |parts| ==> PartOffset(sep, parts, i + 1) == PartOffset(sep, parts, i) + |parts[i]| + |sep|
    ensures i + 1 == |parts| ==> PartOffset(sep, parts, i) + |parts[i]| == |Join(sep, parts)|
    decreases i
  {
    if i == 0 {
      JoinTilesFirst(sep, parts);
    } else {
      var rest := Join(sep, parts[1..]);
      assert Join(sep, parts) == parts[0] + sep + rest;
      assert parts[1..][i - 1] == parts[i];
      var k := PartOffset(sep, parts[1..], i - 1);
      assert PartOffset(sep, parts, i) == |parts[0] + sep| + k;
      JoinTiles(sep, parts[1..], i - 1);
      OccursInSuffix(parts[0] + sep, rest, parts[i], k);
      if i + 1 < |parts| {
        OccursInSuffix(parts[0] + sep, rest, sep, k + |parts[i]|);
      }
    }
  }

  /** The first part starts the joined text, followed by a separator unless it is the last. */
  lemma JoinTilesFirst(sep: string, parts: seq<string>)
    requires 0 < |parts|
    ensures Occurs(Join(sep, parts), parts[0], 0)
    ensures 1 < |parts| ==> Occurs(Join(sep, parts), sep, |parts[0]|)
    ensures 1 == |parts| ==> |parts[0]| == |Join(sep, parts)|
  {
    var j := Join(sep, parts);
    if |parts| == 1 {
      assert j[0..|parts[0]|] == parts[0];
    } else {
      assert j == parts[0] + sep + Join(sep, parts[1..]);
      assert j[0..|parts[0]|] == parts[0];
      assert j[|parts[0]|..|parts[0]| + |sep|] == sep;
    }
  }

  /** Joining two non-empty lists is joining their joins. */
  lemma {:induction false} JoinAppend(sep: string, a: seq<string>, b: seq<string>)
    requires |a| > 0 && |b| > 0
    ensures Join(sep, a + b) == Join(sep, a) + sep + Join(sep, b)
    decreases |a|
  {
    var ab := a + b;
    assert ab[0] == a[0] && Join(sep, ab) == a[0] + sep + Join(sep, ab[1..]);
    if |a| == 1 {
      assert ab[1..] == b;
    } else {
      assert ab[1..] == a[1..] + b;
      JoinAppend(sep, a[1..], b);
      assert Join(sep, a) == a[0] + sep + Join(sep, a[1..]);
    }
  }

  // ---------------------------------------------------------------------------------------
  // s.replace(pat, rep) and its reference, rep.join(s.split(pat))

  /** `s.replace(pat, rep)` for a non-empty `pat`: scan left to right, replace each match and
      resume after it, so matches never overlap and the inserted text is not rescanned. */
  function ReplaceAll(s: string, pat: string, rep: string): string
    requires |pat| > 0
    decreases |s|
  {
    if |s| < |pat| then s
    else if s[..|pat|] == pat then rep + ReplaceAll(s[|pat|..], pat, rep)
    else [s[0]] + ReplaceAll(s[1..], pat, rep)
  }

  /** `s.split(pat)` for a non-empty `pat`: the pieces between the matches of the same scan. */
  function Split(s: string, pat: string): (pieces: seq<string>)
    requires |pat| > 0
    ensures |pieces| > 0
    decreases |s|
  {
    if |s| < |pat| then [s]
    else if s[..|pat|] == pat then [""] + Split(s[|pat|..], pat)
    else
      var rest := Split(s[1..], pat);
      [[s[0]] + rest[0]] + rest[1..]
  }

  /** Text without `pat` is left unchanged by the replacement. */
  lemma {:induction false} ReplaceAllAbsent(s: string, pat: string, rep: string)
    requires |pat| > 0 && !Contains(s, pat)
    ensures ReplaceAll(s, pat, rep) == s
    decreases |s|
  {
    if |s| >= |pat| {
      assert !Occurs(s, pat, 0);
      assert [s[0]] + s[1..] == s;
      forall i | 0 <= i <= |s[1..]| - |pat|
        ensures !Occurs(s[1..], pat, i)
      {
        if Occurs(s[1..], pat, i) {
          OccursShift(s[0], s[1..], pat, i);
        }
      }
      ReplaceAllAbsent(s[1..], pat, rep);
    }
  }

  /** A non-empty piece ending at the first match does not start with a match, and the rest
      of the piece still ends at the first match. */
  lemma FirstMatchRest(piece: string, pat: string)
    requires |pat| > 0 && |piece| > 0 && EndsAtFirstMatch(piece, pat)
    ensures !Occurs(piece + pat, pat, 0)
    ensures EndsAtFirstMatch(piece[1..], pat)
  {
    assert [piece[0]] + (piece[1..] + pat) == piece + pat;
    forall j | 0 <= j < |piece[1..]|
      ensures !Occurs(piece[1..] + pat, pat, j)
    {
      if Occurs(piece[1..] + pat, pat, j) {
        OccursShift(piece[0], piece[1..] + pat, pat, j);
      }
    }
  }

  /** A piece whose first match is the `pat` right after it is copied, then that match is
      replaced, then the scan resumes on the tail. */
  lemma {:induction false} ReplaceAllSkip(piece: string, pat: string, rep: string, tail: string)
    requires |pat| > 0 && EndsAtFirstMatch(piece, pat)
    ensures ReplaceAll(piece + pat + tail, pat, rep) == piece + rep + ReplaceAll(tail, pat, rep)
    decreases |piece|
  {
    var s := piece + pat + tail;
    if |piece| == 0 {
      assert s == pat + tail;
      assert s[..|pat|] == pat && s[|pat|..] == tail;
    } else {
      FirstMatchRest(piece, pat);
      assert s[..|pat|] == (piece + pat)[0..|pat|];
      ReplaceAllSkip(piece[1..], pat, rep, tail);
      assert s[1..] == piece[1..] + pat + tail;
      assert [s[0]] + (piece[1..] + rep + ReplaceAll(tail, pat, rep)) == piece + rep + ReplaceAll(tail, pat, rep);
    }
  }

  /** Pieces that the scan separates exactly at the joining `pat`s are re-joined with `rep`:
      every match is replaced, and nothing else changes. */
  lemma {:induction false} ReplaceAllJoin(pieces: seq<string>, pat: string, rep: string)
    requires |pat| > 0 && |pieces| > 0
    requires forall k :: 0 <= k < |pieces| - 1 ==> EndsAtFirstMatch(pieces[k], pat)
    requires !Contains(pieces[|pieces| - 1], pat)
    ensures ReplaceAll(Join(pat, pieces), pat, rep) == Join(rep, pieces)
    decreases |pieces|
  {
    if |pieces| == 1 {
      ReplaceAllAbsent(pieces[0], pat, rep);
    } else {
      var rest := pieces[1..];
      assert EndsAtFirstMatch(pieces[0], pat);
      ReplaceAllSkip(pieces[0], pat, rep, Join(pat, rest));
      ReplaceAllJoin(rest, pat, rep);
    }
  }

  /** `pieces`, joined with `pat`, make up `s`, and a left-to-right scan for `pat` over `s`
      stops exactly at the joints: no piece hides a match the scan would take first. */
  predicate SplitsAtMatches(s: string, pat: string, pieces: seq<string>) {
    && |pieces| > 0
    && Join(pat, pieces) == s
    && (forall k :: 0 <= k < |pieces| - 1 ==> EndsAtFirstMatch(pieces[k], pat))
    && !Contains(pieces[|pieces| - 1], pat)
  }

  lemma SplitMatchStep(s: string, pat: string, rest: seq<string>)
    requires |pat| > 0 && Occurs(s, pat, 0)
    requires SplitsAtMatches(s[|pat|..], pat, rest)
    ensures SplitsAtMatches(s, pat, [""] + rest)
  {
    var ps := [""] + rest;
    assert ps[1..] == rest;
    assert Join(pat, ps) == "" + pat + Join(pat, rest);
    assert s == s[..|pat|] + s[|pat|..];
    forall k | 0 <= k < |ps| - 1
      ensures EndsAtFirstMatch(ps[k], pat)
    {
      if k > 0 {
        assert ps[k] == rest[k - 1];
      }
    }
  }

  /** The last piece absorbs a leading character that starts no match. */
  lemma SplitCharStepLast(s: string, pat: string, last: string)
    requires |pat| > 0 && |s| > 0 && !Occurs(s, pat, 0)
    requires SplitsAtMatches(s[1..], pat, [last])
    ensures SplitsAtMatches(s, pat, [[s[0]] + last])
  {
    assert Join(pat, [last]) == last;
    assert s == [s[0]] + s[1..];
    forall i | 0 <= i <= |s| - |pat|
      ensures !Occurs(s, pat, i)
    {
      if i > 0 {
        assert s[i..i + |pat|] == s[1..][i - 1..i - 1 + |pat|];
        assert !Occurs(s[1..], pat, i - 1);
      }
    }
  }

  /** The first of several pieces absorbs a leading character that starts no match. */
  lemma SplitCharStepFirst(s: string, pat: string, rest: seq<string>)
    requires |pat| > 0 && |s| > 0 && !Occurs(s, pat, 0)
    requires |rest| > 1 && SplitsAtMatches(s[1..], pat, rest)
    ensures SplitsAtMatches(s, pat, [[s[0]] + rest[0]] + rest[1..])
  {
    var c := s[0];
    var ps := [[c] + rest[0]] + rest[1..];
    var tail := Join(pat, rest[1..]);
    assert Join(pat, rest) == rest[0] + pat + tail;
    assert ps[1..] == rest[1..];
    assert Join(pat, ps) == ([c] + rest[0]) + pat + tail;
    assert s == [c] + s[1..];
    assert EndsAtFirstMatch(rest[0], pat);
    forall j | 0 <= j < |ps[0]|
      ensures !Occurs(ps[0] + pat, pat, j)
    {
      assert s == ps[0] + pat + tail;
      assert ps[0] + pat == [c] + (rest[0] + pat);
      if j == 0 {
        assert s[..|pat|] == (ps[0] + pat)[0..|pat|];
      } else {
        assert (rest[0] + pat)[j - 1..j - 1 + |pat|] == (ps[0] + pat)[j..j + |pat|];
        assert !Occurs(rest[0] + pat, pat, j - 1);
      }
    }
    forall k | 1 <= k < |ps| - 1
      ensures EndsAtFirstMatch(ps[k], pat)
    {
      assert ps[k] == rest[k];
    }
  }

  /** `Split` cuts `s` exactly where the scan finds `pat`. */
  lemma {:induction false} SplitPieces(s: string, pat: string)
    requires |pat| > 0
    ensures SplitsAtMatches(s, pat, Split(s, pat))
    decreases |s|
  {
    if |s| < |pat| {
      assert Join(pat, [s]) == s;
    } else if s[..|pat|] == pat {
      SplitPieces(s[|pat|..], pat);
      SplitMatchStep(s, pat, Split(s[|pat|..], pat));
    } else {
      var rest := Split(s[1..], pat);
      SplitPieces(s[1..], pat);
      if |rest| == 1 {
        SplitCharStepLast(s, pat, rest[0]);
        assert [[s[0]] + rest[0]] + rest[1..] == [[s[0]] + rest[0]];
      } else {
        SplitCharStepFirst(s, pat, rest);
      }
    }
  }

  /** A piece that ends at the first match is split off as the first piece. */
  lemma {:induction false} SplitAfterFirstMatch(piece: string, pat: string, tail: string)
    requires |pat| > 0 && EndsAtFirstMatch(piece, pat)
    ensures Split(piece + pat + tail, pat) == [piece] + Split(tail, pat)
    decreases |piece|
  {
    var s := piece + pat + tail;
    if |piece| == 0 {
      assert s == pat + tail;
      assert s[..|pat|] == pat && s[|pat|..] == tail;
    } else {
      FirstMatchRest(piece, pat);
      assert s[..|pat|] == (piece + pat)[0..|pat|];
      assert s[1..] == piece[1..] + pat + tail;
      SplitAfterFirstMatch(piece[1..], pat, tail);
      assert [s[0]] + piece[1..] == piece;
    }
  }

  /** For a non-empty pattern, replacing is splitting at the pattern and joining the pieces
      with the replacement: `s.replace(pat, rep) == rep.join(s.split(pat))`. */
  lemma ReplaceAllIsJoinOfSplit(s: string, pat: string, rep: string)
    requires |pat| > 0
    ensures ReplaceAll(s, pat, rep) == Join(rep, Split(s, pat))
  {
    SplitPieces(s, pat);
    ReplaceAllJoin(Split(s, pat), pat, rep);
  }

  /** Replacing a pattern by itself changes nothing. */
  lemma ReplaceAllSelf(s: string, pat: string)
    requires |pat| > 0
    ensures ReplaceAll(s, pat, pat) == s
  {
    SplitPieces(s, pat);
    ReplaceAllIsJoinOfSplit(s, pat, pat);
  }

  /** A text holding `pat` exactly once, between `before` and `after`, gets `rep` in its
      place and is otherwise unchanged. */
  lemma ReplaceAllSingle(before: string, pat: string, after: string, rep: string)
    requires |pat| > 0
    requires forall i :: Occurs(before + pat + after, pat, i) ==> i == |before|
    ensures ReplaceAll(before + pat + after, pat, rep) == before + rep + after
  {
    var s := before + pat + after;
    forall j | 0 <= j < |before|
      ensures !Occurs(before + pat, pat, j)
    {
      if Occurs(before + pat, pat, j) {
        OccursInPrefix(before + pat, after, pat, j);
      }
    }
    if Contains(after, pat) {
      var i :| 0 <= i <= |after| - |pat| && Occurs(after, pat, i);
      OccursInSuffix(before + pat, after, pat, i);
    }
    var pieces := [before, after];
    assert pieces[1..] == [after];
    assert Join(pat, pieces) == s;
    ReplaceAllJoin(pieces, pat, rep);
    assert Join(rep, pieces) == before + rep + after;
  }

  // ---------------------------------------------------------------------------------------
  // s.splitlines()[0], s.strip() and s.split()

  /** Characters at which `str.splitlines` ends a line (`\r\n` ends one line too). */
  predicate IsLineBreak(c: char) {
    || c == '\n' || c == '\r' || c == '\U{000B}' || c == '\U{000C}'
    || c == '\U{001C}' || c == '\U{001D}' || c == '\U{001E}' || c == '\U{0085}'
    || c == '\U{2028}' || c == '\U{2029}'
  }

  /** Characters `str.isspace` accepts: the separators of `str.split()` and what `str.strip()`
      removes. Every line break is one. */
  predicate IsSpace(c: char) {
    || IsLineBreak(c) || c == ' ' || c == '\t' || c == '\U{001F}' || c == '\U{00A0}'
    || c == '\U{1680}' || ('\U{2000}' <= c <= '\U{200A}') || c == '\U{202F}'
    || c == '\U{205F}' || c == '\U{3000}'
  }

  predicate NoLineBreak(s: string) {
    forall i :: 0 <= i < |s| ==> !IsLineBreak(s[i])
  }

  predicate NoSpace(s: string) {
    forall i :: 0 <= i < |s| ==> !IsSpace(s[i])
  }

  predicate AllSpace(s: string) {
    forall i :: 0 <= i < |s| ==> IsSpace(s[i])
  }

  /** A token of `str.split()`: non-empty, without whitespace. */
  predicate IsWord(w: string) {
    |w| > 0 && NoSpace(w)
  }

  /** Length of the first line: the index of the first line break, or `|s|` if none. */
  function LineLength(s: string): (n: nat)
    ensures n <= |s|
    ensures NoLineBreak(s[..n])
    ensures n < |s| ==> IsLineBreak(s[n])
    decreases |s|
  {
    if |s| == 0 || IsLineBreak(s[0]) then 0
    else
      var n := 1 + LineLength(s[1..]);
      assert s[..n] == [s[0]] + s[1..][..n - 1];
      n
  }

  /** `s.splitlines()[0]`; `None` where Python raises IndexError, which is exactly when `s`
      is empty (a non-empty text has at least one, possibly empty, line). */
  function FirstLine(s: string): (r: Option<string>)
    ensures r.None? <==> |s| == 0
    ensures r.Some? ==> NoLineBreak(r.value) && r.value <= s
    ensures r.Some? && |r.value| < |s| ==> IsLineBreak(s[|r.value|])
  {
    if |s| == 0 then None else Some(s[..LineLength(s)])
  }

  /** `LineLength` is the position of the first line break. */
  lemma {:induction false} LineLengthAt(s: string, n: nat)
    requires n <= |s| && NoLineBreak(s[..n])
    requires n < |s| ==> IsLineBreak(s[n])
    ensures LineLength(s) == n
    decreases n
  {
    if n > 0 {
      assert s[..n][0] == s[0];
      assert s[1..][..n - 1] == s[..n][1..];
      LineLengthAt(s[1..], n - 1);
    }
  }

  /** The first line of a text is everything before its first line break. */
  lemma FirstLineOf(line: string, brk: char, rest: string)
    requires NoLineBreak(line) && IsLineBreak(brk)
    ensures FirstLine(line + [brk] + rest) == Some(line)
  {
    var s := line + [brk] + rest;
    assert s[..|line|] == line;
    LineLengthAt(s, |line|);
  }

  /** Length of the leading whitespace run. */
  function LeadingSpace(s: string): (n: nat)
    ensures n <= |s| && AllSpace(s[..n])
    ensures n < |s| ==> !IsSpace(s[n])
    decreases |s|
  {
    if |s| == 0 || !IsSpace(s[0]) then 0
    else
      var n := 1 + LeadingSpace(s[1..]);
      assert s[..n] == [s[0]] + s[1..][..n - 1];
      n
  }

  /** Length of the trailing whitespace run. */
  function TrailingSpace(s: string): (n: nat)
    ensures n <= |s|
    ensures forall i :: |s| - n <= i < |s| ==> IsSpace(s[i])
    ensures n < |s| ==> !IsSpace(s[|s| - n - 1])
    decreases |s|
  {
    if |s| == 0 || !IsSpace(s[|s| - 1]) then 0
    else 1 + TrailingSpace(s[..|s| - 1])
  }

  /** `s.strip()`: `s` without its leading and trailing whitespace. */
  function Strip(s: string): (r: string)
    ensures |r| <= |s|
    ensures |r| > 0 ==> !IsSpace(r[0]) && !IsSpace(r[|r| - 1])
    ensures exists a, b :: 0 <= a <= b <= |s| && r == s[a..b] && AllSpace(s[..a]) && AllSpace(s[b..])
  {
    var a := LeadingSpace(s);
    var t := s[a..];
    var r := t[..|t| - TrailingSpace(t)];
    var b := a + |r|;
    assert r == s[a..b] && AllSpace(s[..a]);
    assert AllSpace(s[b..]) by {
      assert s[b..] == t[|t| - TrailingSpace(t)..];
    }
    r
  }

  /** The tokens of `cur + s` under `str.split()`, where `cur` is a partly read token. */
  function WordsFrom(s: string, cur: string): (ws: seq<string>)
    requires NoSpace(cur)
    ensures forall k :: 0 <= k < |ws| ==> IsWord(ws[k])
    decreases |s|
  {
    if |s| == 0 then Flush(cur)
    else if IsSpace(s[0]) then Flush(cur) + WordsFrom(s[1..], "")
    else WordsFrom(s[1..], cur + [s[0]])
  }

  function Flush(cur: string): seq<string> {
    if |cur| == 0 then [] else [cur]
  }

  /** `s.split()`: the maximal whitespace-free runs of `s`, in order. */
  function Words(s: string): seq<string> {
    WordsFrom(s, "")
  }

  lemma {:induction false} WordsFromWord(w: string, rest: string, cur: string)
    requires NoSpace(cur) && NoSpace(w)
    ensures WordsFrom(w + rest, cur) == WordsFrom(rest, cur + w)
    decreases |w|
  {
    if |w| > 0 {
      assert (w + rest)[1..] == w[1..] + rest;
      WordsFromWord(w[1..], rest, cur + [w[0]]);
      assert cur + [w[0]] + w[1..] == cur + w;
    } else {
      assert w + rest == rest;
      assert cur + w == cur;
    }
  }

  lemma {:induction false} WordsFromSpace(sp: string, rest: string)
    requires AllSpace(sp)
    ensures WordsFrom(sp + rest, "") == WordsFrom(rest, "")
    decreases |sp|
  {
    if |sp| > 0 {
      assert (sp + rest)[1..] == sp[1..] + rest;
      WordsFromSpace(sp[1..], rest);
    } else {
      assert sp + rest == rest;
    }
  }

  lemma {:induction false} WordsFromTrailingSpace(s: string, sp: string, cur: string)
    requires AllSpace(sp) && NoSpace(cur)
    ensures WordsFrom(s + sp, cur) == WordsFrom(s, cur)
    decreases |s| + |sp|
  {
    if |s| > 0 {
      assert (s + sp)[1..] == s[1..] + sp;
      if IsSpace(s[0]) {
        WordsFromTrailingSpace(s[1..], sp, "");
      } else {
        WordsFromTrailingSpace(s[1..], sp, cur + [s[0]]);
      }
    } else if |sp| > 0 {
      assert (s + sp)[1..] == sp[1..];
      WordsFromTrailingSpace(s, sp[1..], "");
      assert s + sp[1..] == sp[1..];
      assert s + sp == sp;
      assert WordsFrom(sp[1..], "") == [] by {
        WordsFromTrailingSpace("", sp[1..], "");
        assert "" + sp[1..] == sp[1..];
      }
    } else {
      assert s + sp == s;
    }
  }

  /** Removing whitespace runs from both ends does not change the tokens. */
  lemma WordsOfTrimmed(s: string, a: nat, b: nat)
    requires a <= b <= |s| && AllSpace(s[..a]) && AllSpace(s[b..])
    ensures Words(s[a..b]) == Words(s)
  {
    assert s == s[..a] + s[a..];
    WordsFromSpace(s[..a], s[a..]);
    assert s[a..] == s[a..b] + s[b..];
    WordsFromTrailingSpace(s[a..b], s[b..], "");
  }

  /** `strip()` before `split()` makes no difference. */
  lemma WordsOfStrip(s: string)
    ensures Words(Strip(s)) == Words(s)
  {
    var a, b :| 0 <= a <= b <= |s| && Strip(s) == s[a..b] && AllSpace(s[..a]) && AllSpace(s[b..]);
    WordsOfTrimmed(s, a, b);
  }

  /** `" ".join(ws).split()` gives back `ws` when every element is a token. */
  lemma {:induction false} WordsOfJoin(ws: seq<string>)
    requires forall k :: 0 <= k < |ws| ==> IsWord(ws[k])
    ensures Words(Join(" ", ws)) == ws
    decreases |ws|
  {
    if |ws| == 1 {
      WordsFromWord(ws[0], "", "");
      assert ws[0] + "" == ws[0];
      assert "" + ws[0] == ws[0];
    } else if |ws| > 1 {
      var rest := Join(" ", ws[1..]);
      assert Join(" ", ws) == ws[0] + (" " + rest);
      WordsFromWord(ws[0], " " + rest, "");
      assert "" + ws[0] == ws[0];
      assert (" " + rest)[1..] == rest;
      WordsOfJoin(ws[1..]);
      assert ws == [ws[0]] + ws[1..];
    }
  }
}

=== FILE: wrappers.dfy ===
/** Wrappers used throughout the model: an optional value, and a
    computation that either yields a value or reports why it could not. */
module Wrappers {

  datatype Option<+T> = None | Some(value: T)

  /** Python code signals failure by raising; the model returns `Failure` instead. */
  datatype Result<+R, +E> = Success(value: R) | Failure(error: E)
}
